=== FILE: README.md ===
# Chat, lookup and data-grid rules of the team-building platform, in Dafny

This project models the small decision rules and list updates in the
platform's browser client and in one admin endpoint of its server. They are
written as pure functions over immutable datatypes, and the properties the
code promises are proved about them. The message broker, the REST calls and
the WebRTC media SDK are not modelled. Their callbacks and replies are inputs,
and what the code asks of them is returned as data.

- `SockStomp` (`sock_stomp.dfy`) models the chat session hook. It has one shared
  connection slot (`clientRef`). The room effect opens a client for a truthy
  room id. On connect, the fetched history replaces the message list, and the
  room topic is subscribed after that. Every delivered frame is projected onto
  its four chat fields and appended. The cleanup disconnects whatever the slot
  holds. The module also models the outbound chat message and the RTC call link.
  The hook is a state machine (`Session`, `Event`, `Step`) whose steps return
  the transport effects they request, in order.
- `ReactTable` (`react_table.dfy`) models the data grid. It covers the
  case-insensitive prefix "text" filter and the mapping of an empty filter
  input to "no filter". It also covers the three-state header sort cycle, the
  rule for showing the selection/action column, and the row actions.
- `UserStatus` (`user_status.dfy`) models the user lookup view. It covers the
  initial filter payload, multi-select toggles and radio overwrites, the
  project change and the sort click. It also covers the guard that decides when
  a search is posted, and how a search reply updates the user list.
- `ChatRoute` (`chat_route.dfy`) models the chat widget's routing. It covers
  the project fallback of the team lookup and the leader state, and the
  opponent of a two-person room. It also covers the create, invite or alert
  decision, the title change, the invite menu item, and back/leave. The widget
  is also a state machine over team replies, member loads, selections, room
  entries, title edits, back and leave.
- `VideoChat` (`video_chat.dfy`) models the video call page. It covers the
  session id, the subscriber list as streams arrive and leave, and the
  publisher options derived from the chosen devices. It also covers session
  creation, where HTTP 409 counts as success, and the join and close buttons.
  The page is also a state machine over joins, cancels, connects and streams.
- `AdminController` (`admin_controller.dfy`) models project-code insertion and
  deletion. The name is trimmed and must not be blank, and the service's
  insert/delete gates are uninterpreted predicates passed in as parameters.
  A sequence of requests is related to the changes it makes, each gate seeing
  the table as the earlier requests left it.
- `Strings`, `Lists`, `Js` and `Wrappers` are shared helpers. `Strings` has
  ASCII lower-casing, `startsWith`, Java's `trim`, and the decimal rendering of
  integers. `Lists` has `indexOf`, the one-element splice and the subsequence
  relation. `Js` has JavaScript truthiness of an optional number or boolean.
  `Wrappers` has `Option`, where `None` is `undefined` or `null`.

Two behaviours of the code are worth stating up front, because the model
keeps them as written:

- The message list is never cleared when the room changes
  (`FE/hooks/useSockStomp.ts:79-123` has no reset). The list keeps the
  previous room's messages until the next history load replaces it at line 91.
  `SockStomp.ChangeRoom` states this.
- `FE/hooks/useSockStomp.ts:49` stores the call client in the same ref as the
  room client, and the room cleanup at line 120 disconnects whatever that ref
  holds (see Findings).

## Model

| member | source | states |
|---|---|---|
| SockStomp.SendMessage | FE/hooks/useSockStomp.ts:30-42 | Sending publishes exactly `{room_id, sender_id: current user, message: body}` to `/send/chat/message` on the client in the slot. With no client in the slot, nothing is published. The session itself never changes. |
| SockStomp.RunRoomEffect | FE/hooks/useSockStomp.ts:79-84 | Only a truthy room id opens a client. The new client is fresh and goes into the slot. A room id of 0 or undefined opens nothing and installs no cleanup. |
| SockStomp.RunCleanup | FE/hooks/useSockStomp.ts:119-121 | The cleanup runs only if the effect installed one. It disconnects whatever client the slot holds at that moment, and leaves the slot and the message list alone. |
| SockStomp.ChangeRoom | FE/hooks/useSockStomp.ts:79-123 | An unchanged room id does nothing. Otherwise the old cleanup's disconnect comes before the new client is opened, and a live room changing to a truthy id gives exactly that disconnect and that open. A falsy id opens nothing. The message list, user, subscriptions and flag are kept. |
| SockStomp.Connect | FE/hooks/useSockStomp.ts:86-96 | On connect, the history is fetched for the effect's room. It replaces the message list wholesale, and the flag is set. Only then is `/receive/chat/room/<room_id>` subscribed on the slot's client. |
| SockStomp.Deliver | FE/hooks/useSockStomp.ts:96-111 | A frame on a live subscription is projected onto exactly `create_date_time`, `message`, `sender_id` and `sender_name`. It is appended after all earlier entries, which stay unchanged and in order. |
| SockStomp.RoomTopicInjective | FE/hooks/useSockStomp.ts:95 | Two rooms share a subscription topic only if they are the same room. |
| SockStomp.CallLinkEffects | FE/hooks/useSockStomp.ts:49-76 | A call link opens its client. If `isRoom` is false, it first creates a room with the two users, and when that request fails or its reply has no `data.data`, nothing further happens and the client is never disconnected. Otherwise it publishes `{user_id: from, room_id}` to `/send/chat/messageRTC`, navigates to `rtc/<room_id>` and disconnects; the room id is the created one when `isRoom` is false, and the original target otherwise. |
| SockStomp.SendRtcLinkAsWritten | FE/hooks/useSockStomp.ts:44-77 | As written, the call link puts its new client into the chat session's slot and leaves it there, disconnected when the call completed and still connected when room creation failed. Nothing else of the session changes. |
| SockStomp.SendRtcLink | FE/hooks/useSockStomp.ts:44-77 | The corrected call link issues the same effects on a client of its own and leaves the session's slot untouched; its client stays connected exactly when room creation failed. |
| SockStomp.Step | FE/hooks/useSockStomp.ts:19-133 | With the corrected call link, no event of the hook clears `isConnectStomp`. |
| SockStomp.StepAsWritten | FE/hooks/useSockStomp.ts:19-133 | In the hook as written, no event clears `isConnectStomp` either. |
| SockStomp.ConnectFlagNeverCleared | FE/hooks/useSockStomp.ts:26 | `isConnectStomp` starts true and stays true after any sequence of events, both in the hook as written and with the corrected call link. |
| SockStomp.ConnectFlagKept | FE/hooks/useSockStomp.ts:26 | With the corrected call link, a set `isConnectStomp` stays set after any sequence of events. |
| SockStomp.FlagKeptAsWritten | FE/hooks/useSockStomp.ts:26 | In the hook as written, a set `isConnectStomp` stays set after any sequence of events. |
| SockStomp.DeliveriesAppendInOrder | FE/hooks/useSockStomp.ts:107-110 | Frames delivered one after another on a listening client end up at the end of the list, in delivery order. Nothing else in the session changes. |
| SockStomp.HistoryThenLive | FE/hooks/useSockStomp.ts:88-110 | After connecting with history `h` and then receiving frames `f1..fn`, the list is exactly `h` followed by the projections of `f1..fn`. |
| SockStomp.ScenarioZeroThenFive | FE/hooks/useSockStomp.ts:79-111 | The room id goes from 0 to 5, the history is ["hi"] and then "there" arrives. The list is then "hi", "there". |
| SockStomp.MountValid | FE/hooks/useSockStomp.ts:79-84 | The first render satisfies the session invariant. If a room effect is installed, the slot holds its client and that client is the only open one. Otherwise no client is open. |
| SockStomp.StepValid | FE/hooks/useSockStomp.ts:30-123 | With the call link on its own client, every event keeps the session invariant. |
| SockStomp.CleanupValid | FE/hooks/useSockStomp.ts:119-121 | The cleanup keeps the session invariant. |
| SockStomp.ChangeRoomValid | FE/hooks/useSockStomp.ts:79-123 | A room change keeps the session invariant. |
| SockStomp.ConnectValid | FE/hooks/useSockStomp.ts:86-96 | The connect callback keeps the session invariant. |
| SockStomp.CallLinkValid | FE/hooks/useSockStomp.ts:44-77 | The corrected call link, on a client of its own, keeps the session invariant. |
| SockStomp.RunValid | FE/hooks/useSockStomp.ts:30-123 | With the corrected call link, any sequence of events keeps the session invariant. |
| SockStomp.CallLinkBreaksValidAsWritten | FE/hooks/useSockStomp.ts:49 | As written, a call link from a connected room takes a state that satisfies the invariant to one that does not. |
| SockStomp.OnlyCurrentRoomAppends | FE/hooks/useSockStomp.ts:94-110 | With the corrected call link, every reachable state appends a frame only if it came from the topic of the room currently selected. |
| SockStomp.SendGoesToCurrentRoom | FE/hooks/useSockStomp.ts:30-41 | In any state that satisfies the session invariant with a live room, a chat message goes out on that room's open, subscribed client. The payload carries the id of the room that client subscribed to. |
| SockStomp.CallLinkLeaksRoomClient | FE/hooks/useSockStomp.ts:49 | As written, the sequence "open room 5, place a call, select room 7" leaves room 5's client open. Its frames are then appended to room 7's list. |
| SockStomp.LeakAfterCallLink | FE/hooks/useSockStomp.ts:49 | As written, after room 5 connects and a call is placed, the slot holds the closed call client while room 5's client is still open and subscribed. |
| SockStomp.LeakAfterRoomChange | FE/hooks/useSockStomp.ts:119-121 | From that state, selecting room 7 disconnects the call client again, and room 5's client keeps listening on room 5's topic. |
| SockStomp.SendAfterCallLinkIsLost | FE/hooks/useSockStomp.ts:37 | As written, after a call link the chat messages are published on the call's client, which is already disconnected once the call completed. |
| ReactTable.TextFilter | FE/components/molecules/ReactTable/ReactTable.tsx:279-288 | A row is kept iff its column value is undefined, or the lower-cased value starts with the lower-cased filter. Undefined values are always kept, and the output only contains input rows. |
| ReactTable.TextFilterCount | FE/components/molecules/ReactTable/ReactTable.tsx:279-288 | Each row that passes appears as many times as in the input, and a row that fails not at all. |
| ReactTable.TextFilterIsSubsequence | FE/components/molecules/ReactTable/ReactTable.tsx:279-288 | The filter output is a subsequence of the input rows, in the original order. |
| ReactTable.TextFilterKeepsMatching | FE/components/molecules/ReactTable/ReactTable.tsx:280-287 | Rows that all pass the test come through unchanged. |
| ReactTable.TextFilterIdempotent | FE/components/molecules/ReactTable/ReactTable.tsx:280-287 | Filtering twice with the same value gives the same result as filtering once. |
| ReactTable.EmptyTextFilterKeepsAll | FE/components/molecules/ReactTable/ReactTable.tsx:283-285 | The empty filter value keeps every row. |
| ReactTable.FilterInput | FE/components/molecules/ReactTable/ReactTable.tsx:226 | An empty input becomes undefined and removes the filter. Any other input is used as typed. |
| ReactTable.InputRoundTrip | FE/components/molecules/ReactTable/ReactTable.tsx:224-226 | After typing text, the input box shows that same text. |
| ReactTable.InputDisplay | FE/components/molecules/ReactTable/ReactTable.tsx:224 | The input box shows nothing for no filter or an empty one, and otherwise exactly the filter text. |
| ReactTable.FilterValueRoundTrip | FE/components/molecules/ReactTable/ReactTable.tsx:224-226 | A filter value the box can hold survives being shown and typed back in. |
| ReactTable.FilterInputTransparent | FE/components/molecules/ReactTable/ReactTable.tsx:226 | Mapping empty input to "no filter" filters exactly as the typed text would. Clearing the filter keeps all rows. |
| ReactTable.ApplyColumnFilter | FE/components/molecules/ReactTable/ReactTable.tsx:279-288 | With no filter value every row is kept; with one, a row is kept iff the text filter passes it. |
| ReactTable.SortCycle | FE/components/molecules/ReactTable/ReactTable.tsx:449-457 | The header click's `desc` argument cycles undefined → false (ascending) → true (descending) → undefined. No click leaves the state unchanged. |
| ReactTable.HeaderClick | FE/components/molecules/ReactTable/ReactTable.tsx:448-459 | A click toggles the sort only when the column can sort. It always requests multi-sort, with the next state of the cycle. |
| ReactTable.ThreeClicksRestore | FE/components/molecules/ReactTable/ReactTable.tsx:449-457 | Three header clicks bring any column back to its original sort state. |
| ReactTable.VisibleColumns | FE/components/molecules/ReactTable/ReactTable.tsx:330-353 | The selection column is put in front iff `selectable.selectable` and `onSelectRow` are both set. Otherwise the visible columns are unchanged. |
| ReactTable.BooleanSelectableNeverShows | FE/components/organisms/AdminUserManage/AdminUserManage.tsx:56 | When a caller passes a boolean as `selectable`, the selection column never appears. |
| ReactTable.RowActions | FE/components/molecules/ReactTable/ReactTable.tsx:337-346 | A row offers edit iff `type.edit` is set and delete iff `type.delete` is set, with edit before delete. Each action carries a copy of the row's original record. |
| ReactTable.DataCellsRenderNoActions | FE/components/molecules/ReactTable/ReactTable.tsx:472-513 | Data cells render no row actions. |
| ReactTable.RowOffersActionsOnlyWhenSelectable | FE/components/molecules/ReactTable/ReactTable.tsx:330-353 | A rendered row offers actions only when the selection column was added, and then exactly the actions of its selection cell. |
| UserStatus.InitialProject | FE/components/organisms/UserStatus/UserStatus.tsx:54-55 | The initial project is the last project code only when there are more than one. Otherwise it is 101. |
| UserStatus.InitialPayload | FE/components/organisms/UserStatus/UserStatus.tsx:53-58 | The initial payload has exactly `project`, `studentNumber` and `sort: 'asc'`. |
| UserStatus.InitialPayloadFetches | FE/components/organisms/UserStatus/UserStatus.tsx:61-65 | The empty first payload posts no search. The initial payload always posts one, even with an undefined student number. |
| UserStatus.Mount | FE/components/organisms/UserStatus/UserStatus.tsx:53-70 | The first render starts with no users and ascending order, stores the initial payload, and the search effect posts that payload at once. |
| UserStatus.ToggleCode | FE/components/organisms/UserStatus/UserStatus.tsx:98-105 | An absent code is appended at the end. For a present code, its first occurrence is removed. |
| UserStatus.ToggleTwiceRestores | FE/components/organisms/UserStatus/UserStatus.tsx:98-105 | Toggling an absent code on and then off gives the original list back. |
| UserStatus.ToggleFlipsMembership | FE/components/organisms/UserStatus/UserStatus.tsx:98-105 | On a list without duplicates, a toggle flips whether the code is present, and the list stays free of duplicates. |
| UserStatus.MultiFilter | FE/components/organisms/UserStatus/UserStatus.tsx:90-108 | A missing key starts as an empty list before the toggle, and every other key is unchanged. A non-list value under the key raises an error and leaves the payload unchanged. |
| UserStatus.RadioFilter | FE/components/organisms/UserStatus/UserStatus.tsx:86-88 | A radio choice overwrites its key with the chosen code and leaves every other key unchanged. |
| UserStatus.SelectProject | FE/components/organisms/UserStatus/UserStatus.tsx:118-122 | The project changes iff the chosen value is one of the user's project codes. Nothing else changes. |
| UserStatus.SetPayload | FE/components/organisms/UserStatus/UserStatus.tsx:61-70 | Storing a payload posts it as a search iff it has both `studentNumber` and `project`. |
| UserStatus.ClickSort | FE/components/organisms/UserStatus/UserStatus.tsx:124-127 | A sort click sets `sort` to the given string and negates `sortAsc`. Other keys and the users are unchanged. |
| UserStatus.Dispatch | FE/components/organisms/UserStatus/UserStatus.tsx:86-127 | No control changes the listed users. Any search a control posts is the payload it stored. |
| UserStatus.DispatchKeepsKeys | FE/components/organisms/UserStatus/UserStatus.tsx:86-127 | No filter or sort control removes a payload key. |
| UserStatus.SearchAlwaysArmed | FE/components/organisms/UserStatus/UserStatus.tsx:61-65 | Once the initial payload is set, the search guard holds after any sequence of controls. |
| UserStatus.SortIconPostsPreviousDirection | FE/components/organisms/UserStatus/UserStatus.tsx:175-178 | The sort icon posts the direction it showed before the click. After a click, the posted sort is the opposite of the icon's new state. |
| UserStatus.ApplyReply | FE/components/organisms/UserStatus/UserStatus.tsx:67-81 | Found users replace the list. The "no matching user" error empties it. Any other failure leaves it unchanged. |
| UserStatus.UndecidedRepliesKeepList | FE/components/organisms/UserStatus/UserStatus.tsx:67-81 | Replies that are neither found users nor "no matching user" leave the list unchanged, however many arrive. |
| UserStatus.LastDecisiveReplyWins | FE/components/organisms/UserStatus/UserStatus.tsx:67-81 | After any sequence of replies, the list is the one the last deciding reply showed. |
| ChatRoute.TeamLookupProject | FE/components/organisms/ChatRoute/ChatRoute.tsx:182-185 | The team lookup uses the last project code whenever there is one. Otherwise it uses 101. |
| ChatRoute.ProjectFallbacksDiffer | FE/components/organisms/ChatRoute/ChatRoute.tsx:182-185 | The team lookup's fallback and the lookup view's fallback differ only when there is exactly one project code, and then they do differ. |
| ChatRoute.ApplyHasTeam | FE/components/organisms/ChatRoute/ChatRoute.tsx:194-199 | Leader state and team id are set only when `hasTeam` holds and the leader is the user. Leader state is never reset to false. |
| ChatRoute.Others | FE/components/organisms/ChatRoute/ChatRoute.tsx:209 | The filter keeps exactly the members other than the user. |
| ChatRoute.OthersCount | FE/components/organisms/ChatRoute/ChatRoute.tsx:209 | Each other member is kept as many times as the room list has them, and the user not at all. |
| ChatRoute.OthersIsSubsequence | FE/components/organisms/ChatRoute/ChatRoute.tsx:209 | The filtered members keep their order from the room list. |
| ChatRoute.Opponent | FE/components/organisms/ChatRoute/ChatRoute.tsx:209 | The opponent is the `user_id` of the first member who is not the user. There is none exactly when every member is the user. |
| ChatRoute.OpponentIsHeadOfOthers | FE/components/organisms/ChatRoute/ChatRoute.tsx:209 | The opponent is the first element of `filter(id !== user_id)`. |
| ChatRoute.ApplyRoomMembers | FE/components/organisms/ChatRoute/ChatRoute.tsx:203-212 | Members are loaded only for a non-zero room. A room without another member leaves the opponent unchanged. |
| ChatRoute.SelectedIds | FE/components/organisms/ChatRoute/ChatRoute.tsx:247 | The selected users' ids, one for each selection, in selection order. |
| ChatRoute.ReduceIdsAppends | FE/components/organisms/ChatRoute/ChatRoute.tsx:247 | The spread-reduce appends the selected ids to its accumulator, in order. |
| ChatRoute.ChangeUserSelect | FE/components/organisms/ChatRoute/ChatRoute.tsx:228-234 | A null selection keeps the previous one. |
| ChatRoute.CreateOrInvite | FE/components/organisms/ChatRoute/ChatRoute.tsx:236-271 | An empty selection only raises the alert. On the list route, a room is created for `[self] ++ selected ids`. On the room route, only the selected ids are invited. |
| ChatRoute.ToChatRoom | FE/components/organisms/ChatRoute/ChatRoute.tsx:214-222 | Entering a room selects its id and name and shows the room view. Then the fetched member list replaces `roomUserList`, and a failed fetch keeps the old list. Nothing else changes. |
| ChatRoute.ChangeTitle | FE/components/organisms/ChatRoute/ChatRoute.tsx:285-297 | Only a non-empty title is posted. It is shown only once the server accepts it. |
| ChatRoute.InviteMenu | FE/components/organisms/ChatRoute/ChatRoute.tsx:396-409 | With 2 loaded room members and a leader, the item sends a team invite. With 2 members and no leader, it shows the leader-only alert. Otherwise it opens the invite modal. |
| ChatRoute.CallMenuJoinsCurrentRoom | FE/components/organisms/ChatRoute/ChatRoute.tsx:411-415 | The call item links the current room as a room (`isRoom` true). So no room is created, and the link is published for, and navigates to, the selected room id. |
| ChatRoute.CallMenu | FE/components/organisms/ChatRoute/ChatRoute.tsx:414 | The call item is a call link from the user into the current room, as a room. |
| ChatRoute.Back | FE/components/organisms/ChatRoute/ChatRoute.tsx:340 | Back shows the list without resetting the room id. |
| ChatRoute.Leave | FE/components/organisms/ChatRoute/ChatRoute.tsx:419-421 | Leave posts the leave request and shows the list, keeping the room id. |
| ChatRoute.BackKeepsChatSession | FE/components/organisms/ChatRoute/ChatRoute.tsx:340 | Back and leave do not themselves change the room id, so they ask nothing of the chat session hook: its room effect does not re-run. |
| ChatRoute.ChildRoomWriteRestartsSession | FE/components/organisms/ChatRoute/ChatRoute.tsx:452 | The room view's own `setRoomId` call with a new non-zero id does reach the hook: its room effect re-runs and opens a client for that room. |
| ChatRoute.Step | FE/components/organisms/ChatRoute/ChatRoute.tsx:180-452 | No event changes the user. Only entering a room, or the room view calling the `setRoomId` it is handed, changes the room; only entering changes its loaded members. Only entering, back and leave change the view. |
| ChatRoute.RunKeepsUser | FE/components/organisms/ChatRoute/ChatRoute.tsx:130 | The user is the same after any sequence of events. |
| ChatRoute.RunFollowsLastLedTeam | FE/components/organisms/ChatRoute/ChatRoute.tsx:194-199 | After any run, the leader state holds iff it held before or some reply named the user as leader. The team id is that of the last such reply, or unchanged if there is none. |
| ChatRoute.LedTeamExists | FE/components/organisms/ChatRoute/ChatRoute.tsx:194-199 | There is a last reply naming the user as leader iff some reply does. |
| ChatRoute.RunLeader | FE/components/organisms/ChatRoute/ChatRoute.tsx:194-199 | After any run, the leader state holds iff it held before or some reply in the run named the user as leader. The team id is that of the last such reply. |
| ChatRoute.TeamInviteUsesLedTeam | FE/components/organisms/ChatRoute/ChatRoute.tsx:396-400 | From the first render, the invite item sends a team invite only if some reply named the user as leader. The invite is then from the user, for the team of the last such reply. |
| ChatRoute.RoomNameProvenance | FE/components/organisms/ChatRoute/ChatRoute.tsx:214-216 | The title shown after any run is either the title from before, a name of an entered room, or a non-empty title the server accepted. |
| ChatRoute.TitleNeverBlanked | FE/components/organisms/ChatRoute/ChatRoute.tsx:285-297 | Title edits never blank the title. It stays non-empty as long as every entered room has a non-empty name. |
| ChatRoute.RunSelection | FE/components/organisms/ChatRoute/ChatRoute.tsx:228-234 | After any run, the selection is the last non-null one, or the earlier selection if there was none. |
| ChatRoute.RunKeepsView | FE/components/organisms/ChatRoute/ChatRoute.tsx:214-222 | Without room entry, back, leave or a `setRoomId` call from the room view, the room, its loaded members and the view stay as they were. |
| ChatRoute.InviteTargetsEnteredRoom | FE/components/organisms/ChatRoute/ChatRoute.tsx:255-260 | After entering a room, and until the next room entry, back, leave or `setRoomId` call from the room view, a non-empty selection is invited into that room. |
| ChatRoute.CreateAfterLeavingRoom | FE/components/organisms/ChatRoute/ChatRoute.tsx:239-249 | After back or leave, and until a room is entered, a non-empty selection creates a new room for the user and the selected users. |
| ChatRoute.EnteredRoomKeepsMembers | FE/components/organisms/ChatRoute/ChatRoute.tsx:214-222 | After a room is entered with its member list loaded, that room and that list stay current until the next room entry, back, leave or `setRoomId` call from the room view. |
| ChatRoute.InviteMenuCountsEnteredRoom | FE/components/organisms/ChatRoute/ChatRoute.tsx:396-409 | In a room entered with two loaded members, the invite item gives the team invite or the leader-only alert, never the invite modal. |
| VideoChat.UserName | FE/components/webrtc/VideoChat.tsx:46-47 | The display name is the auth state's `name`, or `'MeetInSsafy'` when that is falsy. It is never empty. |
| VideoChat.SessionId | FE/components/webrtc/VideoChat.tsx:48 | The session id is the prefix `"session_of_"` followed by the display name. |
| VideoChat.SessionIdNaming | FE/components/webrtc/VideoChat.tsx:47-48 | The session id is `"session_of_"` followed by the display name. Two users share a session id iff they share a display name. |
| VideoChat.StreamCreated | FE/components/webrtc/VideoChat.tsx:114-118 | A new stream's subscriber is appended after all earlier ones. |
| VideoChat.DeleteSubscriber | FE/components/webrtc/VideoChat.tsx:81-88 | Only the first matching entry is removed, and the rest keep their order. An absent stream leaves the list unchanged. |
| VideoChat.CreatedThenDestroyed | FE/components/webrtc/VideoChat.tsx:81-118 | A stream that arrives and then leaves restores the list it found. |
| VideoChat.PublisherFor | FE/components/webrtc/VideoChat.tsx:134-145 | An empty or undefined mic gives no audio source and no audio; otherwise the mic is the source and audio is published. The camera works the same way. Resolution is 640x320, at 30 fps, without mirroring. |
| VideoChat.PublishIffSource | FE/components/webrtc/VideoChat.tsx:134-141 | A track is published iff it has a source. The empty string is never used as a source. |
| VideoChat.CreateSession | FE/components/webrtc/VideoChat.tsx:179-220 | Creating the session resolves with the server's id. On HTTP 409 it resolves with the requested id. Any other failure neither resolves nor rejects, and opens the certificate page only if the user confirms. |
| VideoChat.GetToken | FE/components/webrtc/VideoChat.tsx:173-177 | A token is obtained only for a resolved session. A session that never settles leaves the token pending. |
| VideoChat.Join | FE/components/webrtc/VideoChat.tsx:97-104 | Join records the mic and camera choice, hides the config modal and starts a session. |
| VideoChat.CloseConfig | FE/components/webrtc/VideoChat.tsx:90-95 | Closing the config modal drops the publisher and hides the modal. |
| VideoChat.SessionConnected | FE/components/webrtc/VideoChat.tsx:133-149 | Once connected, the publisher follows the recorded device choice. Nothing else changes. |
| VideoChat.JoinWithoutMic | FE/components/webrtc/VideoChat.tsx:134-141 | Joining with an empty mic and a real camera publishes only video, from that camera. |
| VideoChat.JoinThenConnect | FE/components/webrtc/VideoChat.tsx:97-149 | For any mic and camera, joining and then connecting publishes exactly that choice. The modal is hidden and the subscribers are unchanged. |
| VideoChat.CloseAfterConnect | FE/components/webrtc/VideoChat.tsx:90-95 | Cancelling the modal after connecting drops the publisher and keeps the subscribers and the device choice. |
| VideoChat.Step | FE/components/webrtc/VideoChat.tsx:81-149 | Only stream events change the subscriber list, and they change nothing else. One event adds at most one subscriber. |
| VideoChat.SubscribersBoundedByArrivals | FE/components/webrtc/VideoChat.tsx:81-118 | After any run, the subscriber list has grown by at most the number of streams that arrived. |
| VideoChat.OnlyStreamsChangeSubscribers | FE/components/webrtc/VideoChat.tsx:81-118 | Without stream events, the subscriber list stays the same. |
| Lists.RemoveFirst | FE/components/webrtc/VideoChat.tsx:83-86 | `splice(indexOf(x), 1)` removes exactly the first occurrence when there is one, and does nothing otherwise. |
| Lists.RemoveFirstMultiset | FE/components/organisms/UserStatus/UserStatus.tsx:99-102 | Removing the first occurrence takes exactly one copy out of the list. |
| Lists.CountIsMultiplicity | FE/components/organisms/ChatRoute/ChatRoute.tsx:209 | The number of occurrences of an element is its multiplicity in the list's multiset. |
| Lists.CountAppend | FE/components/organisms/ChatRoute/ChatRoute.tsx:209 | Occurrence counts add up over a concatenation. |
| Lists.RemoveFirstNoDuplicates | FE/components/organisms/UserStatus/UserStatus.tsx:99-102 | On a list without duplicates, removing an element leaves a list without duplicates that no longer contains it. |
| Strings.Trim | BE/teamgu/src/main/java/com/teamgu/api/controller/AdminController.java:57 | Java's `trim()` cuts only characters at or below U+0020, from either end. What is left has no such character at either end. |
| Strings.TrimEmptyIffBlank | BE/teamgu/src/main/java/com/teamgu/api/controller/AdminController.java:57-59 | A name trims to empty iff every character is at or below U+0020. |
| AdminController.InsertCode | BE/teamgu/src/main/java/com/teamgu/api/controller/AdminController.java:54-72 | The name is trimmed first, and a blank result gets 400. Insertion happens iff `checkInsertable(codeId, trimmed)` holds, and then the trimmed name is inserted with 200. Otherwise the reply is 400. A null name fails in `trim()`. |
| AdminController.BlankNameRejected | BE/teamgu/src/main/java/com/teamgu/api/controller/AdminController.java:57-61 | An empty or whitespace-only name gets 400 with no insert, whatever the gate says. |
| AdminController.InsertedNameIsTrimmed | BE/teamgu/src/main/java/com/teamgu/api/controller/AdminController.java:57-65 | The inserted name is non-empty and already trimmed. |
| AdminController.NullCheckIsDead | BE/teamgu/src/main/java/com/teamgu/api/controller/AdminController.java:57-59 | A 400 never comes from a null name. The null check comes after `trim()`, which has already failed. |
| AdminController.DeleteCode | BE/teamgu/src/main/java/com/teamgu/api/controller/AdminController.java:76-89 | Deletion happens iff `checkDeleteable(codeId, code)` holds, with 200. Otherwise the reply is 400 and nothing is deleted. |
| AdminController.ChangeComesFromRequest | BE/teamgu/src/main/java/com/teamgu/api/controller/AdminController.java:54-89 | A sequence of requests makes a change iff one request's reply carries it, each request answered against the table after the changes of the requests before it. |
| AdminController.DeletedIffRequested | BE/teamgu/src/main/java/com/teamgu/api/controller/AdminController.java:76-89 | A code is deleted iff some delete request asked for it and `checkDeleteable`, consulted after the earlier requests' changes, allowed it. |
| AdminController.InsertedIffRequested | BE/teamgu/src/main/java/com/teamgu/api/controller/AdminController.java:54-72 | A name is inserted iff some insert request's name trims to it, it is not blank, and `checkInsertable`, consulted after the earlier requests' changes, allowed it. |
| AdminController.RepeatedDeleteTakesEffectOnce | BE/teamgu/src/main/java/com/teamgu/api/controller/AdminController.java:81-85 | When `checkDeleteable` refuses a code already deleted, two identical delete requests delete it at most once. |

## Findings

| source | as written | input that shows it | evidently intended | confidence | as-written member | corrected member |
|---|---|---|---|---|---|---|
| FE/hooks/useSockStomp.ts:49 | The call link stores its client in `clientRef`, the slot the room session uses. The room cleanup disconnects whatever that slot holds. | Mount in room 5 and connect. Place a call from the room (`isRoom` true), then select room 7. The cleanup disconnects the call's closed client, so room 5's client stays open and subscribed. Its frames land in room 7's list, and chat sends until then go to the closed call client. | The call link uses a client of its own, and the room cleanup disconnects the room's own client. | medium, not executed | SockStomp.CallLinkLeaksRoomClient | SockStomp.OnlyCurrentRoomAppends |

`SockStomp.SendRtcLinkAsWritten` and `SockStomp.SendAfterCallLinkIsLost`
model the code as written. `SockStomp.SendRtcLink`, which `SockStomp.Step`
uses, is the corrected call link. `SockStomp.StepValid` proves that it keeps
the session invariant, and `SockStomp.CallLinkBreaksValidAsWritten` shows a
state that satisfies the invariant and that the call link as written breaks.

## Left out

- Transport and network I/O (SockJS/STOMP, axios, the media SDK) are not
  modelled. Connect, fetch, create-room, delivery and HTTP replies are inputs.
  Publish, subscribe, disconnect and navigation are returned as effects.
- Interleavings of asynchronous continuations are not modelled. That includes
  a stale connect or fetch callback running after a room switch. Each event is
  one atomic step, and a call link runs to completion in one step.
- `ReactTable.ApplyColumnFilter` models the table library's rule that a
  column whose filter value is undefined is not filtered. The library itself
  is not part of this model.
- The event machines (`SockStomp.Step`, `ChatRoute.Step`, `VideoChat.Step`)
  accept every event in every state, including ones the page cannot produce
  there: a title edit on the list view, a join click after the modal is
  hidden, an event after unmount. No proved property depends on excluding
  them.
- `SockStomp.CallLinkEffects` does not model a create-room reply whose
  `data.data` has no `chat_room_id`. The code then goes on with `target`
  undefined: it publishes `{user_id}` alone, navigates to `rtc/undefined` and
  disconnects. The model's reply is either a room id or no `data.data` at all.
- `SockStomp.Step` takes the `setMessageList` the hook returns as the event
  `MessagesSet`, which may replace the list at any point. The room view that
  receives the setter is not part of this model, so when it writes is not
  modelled. `SockStomp.HistoryThenLive` and `SockStomp.DeliveriesAppendInOrder`
  speak only of runs without such a write.
- `ChatRoute.Step` takes the room view's `setRoomId` (passed at
  ChatRoute.tsx:452) as the event `ChildSetsRoom`, which may arrive at any
  point. The room view is not part of this model, so when it calls the setter,
  and its writes to the message list, are not modelled.
- `ChatRoute.RunKeepsView` covers only runs in which the room view does not
  call `setRoomId`. Such a call counts as navigation.
- `ChatRoute.InviteTargetsEnteredRoom` covers only runs in which the room view
  does not call `setRoomId` after the room entry.
- `ChatRoute.EnteredRoomKeepsMembers` covers only runs in which the room view
  does not call `setRoomId` after the room entry.
- `ChatRoute.BackKeepsChatSession` covers only the widget's own back and leave
  handlers. If the room view calls `setRoomId` when it unmounts, that write
  re-runs the hook's effect, as `ChatRoute.ChildRoomWriteRestartsSession` states.
- Failed connects (only logged) and failed history fetches (rejected promise)
  are not modelled. Neither changes the session. Malformed inbound JSON is not
  modelled either.
- `SockStomp.Deliver` models an inbound body as already parsed: the four kept
  fields plus extra string fields. JSON parsing is not modelled.
- `ReactTable.TextFilter`: `String(value)` is not modelled, because a cell
  carries its string rendering. `toLowerCase` is modelled on ASCII letters only
  (Unicode case mapping is not).
- `ReactTable.ClickHeader` models the table library's reaction to the header
  click: the requested `desc` becomes the column's sort state. With `undefined`,
  the library removes the sort. The library's multi-sort list is not modelled.
- The `fuzzyText` filter type is left out, because it calls `matchSorter`,
  which is never imported. Grouping, pagination, expansion and rendering of the
  grid are also left out.
- The global search box's debounce is left out. Its empty-to-undefined mapping
  is the same as `ReactTable.FilterInput`.
- `UserStatus.MultiFilter` models value semantics. The source edits the
  previous payload's inner array in place, and that aliasing is not modelled.
  `FILTER_TITLE` is an uninterpreted map, and an unknown title becomes the
  property name `"undefined"`.
- The filter-contents fetch and the user-select autocomplete of the lookup view
  are presentation and I/O, and are left out.
- `ChatRoute.InviteMenu` only decides which action to take. The team-invite
  action calls `handleSendInvitation`, which the chat hook does not return, so
  in the code that branch calls undefined. `handleGetChatRoomMessages` is also
  missing from the hook. Neither is modelled as working.
- The close-on-outside-click handler, the modal state and the chat list fetch
  of the chat widget are UI plumbing, and are left out.
- `ChatRoute.CreateOrInvite` returns the request it posts. The room entry that
  follows a successful create is the separate `EnterRoom` event, and a failed
  create or invite (only logged) changes nothing.
- `ChatRoute.Step` takes the replies of the team lookup and the opponent lookup
  as events in arrival order. The team lookup re-runs whenever the room's
  member list changes, and a reply may arrive for any earlier request.
- The video page's stream callbacks close over the subscriber array of the render that started the session. They push into and splice that same array in place before copying it, so the model keeps one list.
- `leaveSession` in the video page is left out. It assigns to the constant
  `OV` before its state reset, so that reset is not reliably reached.
- The `beforeunload` hook, the dynamic SDK import and `createToken`'s HTTP
  request are left out. The token reply is an input of `VideoChat.GetToken`.
- The service behind `checkInsertable`, `checkDeleteable`, `insertCode` and
  `deleteCode` is not part of this model. The gates are parameters that see
  the changes made by earlier requests, oldest first, in place of the code
  table; the table's initial contents are folded into the gate. The other
  admin endpoints (project and code listing) are plain reads and are not
  modelled.
- The request DTO is not part of this model. `codeId` is taken as given, and
  `getCode()` as an `int`.
- Styling, layout, the configuration modal, the autocomplete wrapper, the admin
  import/export screens and the declaration-only files are out of scope.

=== FILE: admin_controller.dfy ===
/**
 * The project-code endpoints of the admin controller: insert trims the name,
 * rejects a blank one, and inserts only what the service's gate allows;
 * delete likewise consults its gate. The gates (`checkInsertable`,
 * `checkDeleteable`) are the service's business and arrive as parameters.
 */
module AdminController {
  import opened Wrappers
  import Strings

  /** How a request ends: 200, 400, or the NullPointerException a null name raises in `trim()`. */
  datatype Response = Ok | BadRequest | NullPointer

  /** The change a request makes to the code table. */
  datatype Change = Insert(codeId: string, codeName: string) | Delete(codeId: string, code: int)

  datatype Reply = Reply(response: Response, change: Option<Change>)

  /** `insertCode`; `codeName` None is a null name in the request body. */
  function InsertCode(codeId: string, codeName: Option<string>, insertable: (string, string) -> bool): (r: Reply)
    ensures codeName.None? ==> r == Reply(NullPointer, None)
    ensures codeName.Some? && Strings.Trim(codeName.value) == "" ==> r == Reply(BadRequest, None)
    ensures r.change.Some? <==>
      codeName.Some? && Strings.Trim(codeName.value) != "" && insertable(codeId, Strings.Trim(codeName.value))
    ensures r.change.Some? ==> r.change.value == Insert(codeId, Strings.Trim(codeName.value))
    ensures r.response == Ok <==> r.change.Some?
    ensures codeName.Some? ==> r.response != NullPointer
  {
    match codeName
    case None => Reply(NullPointer, None)
    case Some(raw) =>
      var name := Strings.Trim(raw);
      if name == "" then Reply(BadRequest, None)
      else if insertable(codeId, name) then Reply(Ok, Some(Insert(codeId, name)))
      else Reply(BadRequest, None)
  }

  /** A name made only of blanks is rejected, whatever the gate says. */
  lemma BlankNameRejected(codeId: string, raw: string, insertable: (string, string) -> bool)
    requires forall i :: 0 <= i < |raw| ==> Strings.IsTrimmable(raw[i])
    ensures InsertCode(codeId, Some(raw), insertable) == Reply(BadRequest, None)
  {
    Strings.TrimEmptyIffBlank(raw);
  }

  /** What gets inserted is non-empty, already trimmed, and has no blank at either end. */
  lemma InsertedNameIsTrimmed(codeId: string, codeName: Option<string>, insertable: (string, string) -> bool)
    ensures var r := InsertCode(codeId, codeName, insertable);
      r.change.Some? ==>
        var n := r.change.value.codeName;
        n != "" && Strings.Trim(n) == n && !Strings.IsTrimmable(n[0]) && !Strings.IsTrimmable(n[|n| - 1])
  {
    if codeName.Some? {
      Strings.TrimIdempotent(codeName.value);
    }
  }

  /**
   * The null check runs after `trim()`, so a null name has already failed
   * there: no 400 ever comes from a null name.
   */
  lemma NullCheckIsDead(codeId: string, codeName: Option<string>, insertable: (string, string) -> bool)
    ensures InsertCode(codeId, codeName, insertable).response == BadRequest ==> codeName.Some?
  {
  }

  /** `deleteCode`: the code is deleted exactly when the gate allows it. */
  function DeleteCode(codeId: string, code: int, deletable: (string, int) -> bool): (r: Reply)
    ensures r.change.Some? <==> deletable(codeId, code)
    ensures r.change.Some? ==> r.change.value == Delete(codeId, code) && r.response == Ok
    ensures r.change.None? ==> r.response == BadRequest
  {
    if deletable(codeId, code) then Reply(Ok, Some(Delete(codeId, code))) else Reply(BadRequest, None)
  }
  // ---------------------------------------------------------------------------
  // A sequence of requests against the code table
  // ---------------------------------------------------------------------------

  datatype Request =
    | InsertRequest(codeId: string, codeName: Option<string>)
    | DeleteRequest(codeId: string, code: int)

  /**
   * The service's gates consult the code table, which the earlier requests
   * have changed: each gate sees the changes made so far, oldest first.
   */
  type InsertGate = (seq<Change>, string, string) -> bool
  type DeleteGate = (seq<Change>, string, int) -> bool

  /** One request, answered against the table after the changes `done`. */
  function Handle(req: Request, done: seq<Change>, insertable: InsertGate, deletable: DeleteGate): Reply {
    match req
    case InsertRequest(codeId, codeName) => InsertCode(codeId, codeName, (id, name) => insertable(done, id, name))
    case DeleteRequest(codeId, code) => DeleteCode(codeId, code, (id, c) => deletable(done, id, c))
  }

  /** The changes a sequence of requests makes, in request order, each answered after the ones before it. */
  function Changes(reqs: seq<Request>, insertable: InsertGate, deletable: DeleteGate): seq<Change>
    decreases |reqs|
  {
    if |reqs| == 0 then []
    else
      var before := Changes(reqs[..|reqs| - 1], insertable, deletable);
      var r := Handle(reqs[|reqs| - 1], before, insertable, deletable);
      before + (if r.change.Some? then [r.change.value] else [])
  }

  /** The reply to request `i`, given the changes of the requests before it, carries `ch`. */
  predicate MadeAt(reqs: seq<Request>, i: nat, insertable: InsertGate, deletable: DeleteGate, ch: Change)
    requires i < |reqs|
  {
    Handle(reqs[i], Changes(reqs[..i], insertable, deletable), insertable, deletable).change == Some(ch)
  }

  /** A change is made exactly when some request's reply, given the changes before it, carries it. */
  lemma {:induction false} ChangeComesFromRequest(reqs: seq<Request>, insertable: InsertGate,
                                                  deletable: DeleteGate, ch: Change)
    ensures ch in Changes(reqs, insertable, deletable) <==>
      exists i: nat :: i < |reqs| && MadeAt(reqs, i, insertable, deletable, ch)
    decreases |reqs|
  {
    if |reqs| > 0 {
      var n := |reqs| - 1;
      var front := reqs[..n];
      ChangeComesFromRequest(front, insertable, deletable, ch);
      forall i: nat | i < n
        ensures MadeAt(front, i, insertable, deletable, ch) == MadeAt(reqs, i, insertable, deletable, ch)
      {
        assert front[i] == reqs[i] && front[..i] == reqs[..i];
      }
      assert ch in Changes(reqs, insertable, deletable) <==>
        ch in Changes(front, insertable, deletable) || MadeAt(reqs, n, insertable, deletable, ch);
    }
  }

  /** Request `i` asks to delete `code` from `codeId`, and the gate allows it after the earlier changes. */
  predicate DeleteAllowedAt(reqs: seq<Request>, i: nat, insertable: InsertGate, deletable: DeleteGate,
                            codeId: string, code: int)
    requires i < |reqs|
  {
    reqs[i] == DeleteRequest(codeId, code) && deletable(Changes(reqs[..i], insertable, deletable), codeId, code)
  }

  /** A code is deleted exactly when a delete request asked for it and the gate, given the changes before it, allowed it. */
  lemma DeletedIffRequested(reqs: seq<Request>, insertable: InsertGate, deletable: DeleteGate, codeId: string, code: int)
    ensures Delete(codeId, code) in Changes(reqs, insertable, deletable) <==>
      exists i: nat :: i < |reqs| && DeleteAllowedAt(reqs, i, insertable, deletable, codeId, code)
  {
    ChangeComesFromRequest(reqs, insertable, deletable, Delete(codeId, code));
    forall i: nat | i < |reqs|
      ensures MadeAt(reqs, i, insertable, deletable, Delete(codeId, code))
          <==> DeleteAllowedAt(reqs, i, insertable, deletable, codeId, code)
    {
    }
  }

  /**
   * Request `i` inserts into `codeId` a name that trims to `name`, which is
   * not blank, and the gate allows it after the earlier changes.
   */
  predicate InsertAllowedAt(reqs: seq<Request>, i: nat, insertable: InsertGate, deletable: DeleteGate,
                            codeId: string, name: string)
    requires i < |reqs|
  {
    && name != "" && reqs[i].InsertRequest? && reqs[i].codeId == codeId
    && reqs[i].codeName.Some? && Strings.Trim(reqs[i].codeName.value) == name
    && insertable(Changes(reqs[..i], insertable, deletable), codeId, name)
  }

  /**
   * A name is inserted exactly when some insert request's name trims to it,
   * it is not blank, and the gate, given the changes before it, allowed it.
   */
  lemma InsertedIffRequested(reqs: seq<Request>, insertable: InsertGate, deletable: DeleteGate, codeId: string, name: string)
    ensures Insert(codeId, name) in Changes(reqs, insertable, deletable) <==>
      exists i: nat :: i < |reqs| && InsertAllowedAt(reqs, i, insertable, deletable, codeId, name)
  {
    ChangeComesFromRequest(reqs, insertable, deletable, Insert(codeId, name));
    forall i: nat | i < |reqs|
      ensures MadeAt(reqs, i, insertable, deletable, Insert(codeId, name))
          <==> InsertAllowedAt(reqs, i, insertable, deletable, codeId, name)
    {
    }
  }

  /**
   * With a delete gate that refuses a code already deleted, repeating a
   * delete request deletes the code at most once.
   */
  lemma RepeatedDeleteTakesEffectOnce(insertable: InsertGate, deletable: DeleteGate, codeId: string, code: int)
    requires forall done :: Delete(codeId, code) in done ==> !deletable(done, codeId, code)
    ensures Changes([DeleteRequest(codeId, code), DeleteRequest(codeId, code)], insertable, deletable)
         == if deletable([], codeId, code) then [Delete(codeId, code)] else []
  {
    var reqs := [DeleteRequest(codeId, code), DeleteRequest(codeId, code)];
    assert reqs[..1] == [DeleteRequest(codeId, code)] && reqs[..1][..0] == [];
    assert Changes(reqs[..1][..0], insertable, deletable) == [];
    assert Handle(reqs[0], [], insertable, deletable) == DeleteCode(codeId, code, (id, c) => deletable([], id, c));
    var first := Changes(reqs[..1], insertable, deletable);
    assert first == if deletable([], codeId, code) then [Delete(codeId, code)] else [];
    assert reqs[..2] == reqs;
  }
}

=== FILE: chat_route.dfy ===
/**
 * The chat widget's routing decisions (`ChatRoute`): which project the team
 * lookup asks about, who the leader and the opponent are, whether the
 * create/invite button creates a room, invites into one or alerts, when a
 * room title is changed, what the invite menu item does, and how back and
 * leave move between the list and a room.
 */
module ChatRoute {
  import opened Wrappers
  import UserStatus
  import SockStomp
  import Strings
  import Lists

  /** "Please select a user!." */
  const SelectUserAlert: string := "\U{C720}\U{C800}\U{B97C} \U{C120}\U{D0DD}\U{D574}\U{C8FC}\U{C138}\U{C694}!."
  /** "Only the team leader can invite." */
  const LeaderOnlyAlert: string := "\U{D300}\U{C7A5}\U{B9CC} \U{CD08}\U{B300} \U{AC00}\U{B2A5}\U{D569}\U{B2C8}\U{B2E4}."

  /** `CHAT_LIST` (0) and `CHAT_ROOM` (1). */
  datatype Route = ChatList | ChatRoom

  /** A room member or a selected user; only the user id matters here. */
  datatype Member = Member(userId: int, name: string)

  datatype Team = Team(id: int, leaderId: int)

  /** The team lookup's reply; a team that is missing although `hasTeam` holds is None. */
  datatype HasTeamReply = HasTeamReply(hasTeam: bool, team: Option<Team>)

  datatype Ui = Ui(
    userId: int,
    roomId: int,
    roomName: string,
    route: Route,
    selected: seq<Member>,
    isLeader: bool,
    teamId: int,
    opponentId: int,
    roomMembers: seq<Member>)     // roomUserList, loaded when a room is entered

  function Initial(userId: int): Ui {
    Ui(userId, 0, "", ChatList, [], false, 0, 0, [])
  }

  /** Server requests the widget posts. */
  datatype Request =
    | CreateRoom(userIds: seq<int>)
    | InviteRoom(roomId: int, userIds: seq<int>)
    | ModifyRoomName(roomId: int, title: string)
    | LeaveRoom(roomId: int, userId: int)

  /** What a button or menu item ends up doing. */
  datatype Command =
    | Post(request: Request)
    | Alert(message: string)
    | OpenInviteModal
    | TeamInvite(teamId: int, from: int, to: int)
    | CallLink(from: int, target: int, isRoom: bool)

  // ---------------------------------------------------------------------------
  // Team lookup and leader state
  // ---------------------------------------------------------------------------

  /** The project the team lookup asks about: the last code whenever there is one. */
  function TeamLookupProject(projectCode: Option<seq<int>>): (p: int)
    ensures projectCode.Some? && |projectCode.value| > 0 ==> p == projectCode.value[|projectCode.value| - 1]
    ensures !(projectCode.Some? && |projectCode.value| > 0) ==> p == UserStatus.DefaultProject
  {
    match projectCode
    case Some(codes) => if |codes| > 0 then codes[|codes| - 1] else UserStatus.DefaultProject
    case None => UserStatus.DefaultProject
  }

  /**
   * The two project fallbacks disagree only for a single project code (the
   * lookup view needs two codes before it stops using the default).
   */
  lemma ProjectFallbacksDiffer(projectCode: Option<seq<int>>)
    ensures TeamLookupProject(projectCode) != UserStatus.InitialProject(projectCode) ==>
      projectCode.Some? && |projectCode.value| == 1
    ensures projectCode.Some? && |projectCode.value| == 1 && projectCode.value[0] != UserStatus.DefaultProject ==>
      TeamLookupProject(projectCode) != UserStatus.InitialProject(projectCode)
  {
  }

  /** The team-lookup reply: only a team led by the user sets the leader state, and nothing clears it. */
  function ApplyHasTeam(ui: Ui, reply: HasTeamReply): (r: Ui)
    ensures ui.isLeader ==> r.isLeader
    ensures reply.hasTeam && reply.team.Some? && reply.team.value.leaderId == ui.userId ==>
      r == ui.(isLeader := true, teamId := reply.team.value.id)
    ensures !(reply.hasTeam && reply.team.Some? && reply.team.value.leaderId == ui.userId) ==> r == ui
  {
    if reply.hasTeam then
      match reply.team
      case Some(team) => if team.leaderId == ui.userId then ui.(isLeader := true, teamId := team.id) else ui
      case None => ui
    else ui
  }

  // ---------------------------------------------------------------------------
  // Opponent
  // ---------------------------------------------------------------------------

  /** `members.filter(m => id !== m.user_id)`. */
  function Others(userId: int, members: seq<Member>): (r: seq<Member>)
    ensures forall m :: m in r ==> m in members && m.userId != userId
    ensures forall m :: m in members && m.userId != userId ==> m in r
  {
    if |members| == 0 then []
    else (if members[0].userId != userId then [members[0]] else []) + Others(userId, members[1..])
  }

  /** Each other member is kept as many times as the room list has them; the user not at all. */
  lemma {:induction false} OthersCount(userId: int, members: seq<Member>, m: Member)
    ensures Lists.Count(Others(userId, members), m) == if m.userId != userId then Lists.Count(members, m) else 0
    decreases |members|
  {
    if |members| > 0 {
      OthersCount(userId, members[1..], m);
      var h := if members[0].userId != userId then [members[0]] else [];
      assert Others(userId, members) == h + Others(userId, members[1..]);
      Lists.CountAppend(h, Others(userId, members[1..]), m);
    }
  }

  /** The other members keep the order they have in the room list. */
  lemma {:induction false} OthersIsSubsequence(userId: int, members: seq<Member>)
    ensures Lists.IsSubsequence(Others(userId, members), members)
  {
    if |members| > 0 {
      OthersIsSubsequence(userId, members[1..]);
      var rest := Others(userId, members[1..]);
      if members[0].userId != userId {
        assert Others(userId, members) == [members[0]] + rest;
        assert ([members[0]] + rest)[1..] == rest;
      } else {
        assert Others(userId, members) == rest;
      }
    }
  }

  /** Position of the first member who is not the user (|members| if there is none). */
  function FirstOtherIndex(userId: int, members: seq<Member>): (i: nat)
    ensures i <= |members|
    ensures forall j :: 0 <= j < i ==> members[j].userId == userId
    ensures i < |members| ==> members[i].userId != userId
  {
    if |members| == 0 || members[0].userId != userId then 0 else 1 + FirstOtherIndex(userId, members[1..])
  }

  /**
   * The opponent: the id of the first member who is not the user. None is the
   * TypeError `[0].user_id` raises when there is no such member.
   */
  function Opponent(userId: int, members: seq<Member>): (r: Option<int>)
    ensures r.None? <==> forall j :: 0 <= j < |members| ==> members[j].userId == userId
    ensures r.Some? ==> r.value != userId && r.value == members[FirstOtherIndex(userId, members)].userId
  {
    var i := FirstOtherIndex(userId, members);
    if i < |members| then Some(members[i].userId) else None
  }

  /** The opponent is what the source reads: the head of the filtered list. */
  lemma {:induction false} OpponentIsHeadOfOthers(userId: int, members: seq<Member>)
    ensures Opponent(userId, members) ==
      (if |Others(userId, members)| > 0 then Some(Others(userId, members)[0].userId) else None)
  {
    if |members| > 0 {
      OpponentIsHeadOfOthers(userId, members[1..]);
      if members[0].userId == userId {
        assert Others(userId, members) == Others(userId, members[1..]);
        assert FirstOtherIndex(userId, members) == 1 + FirstOtherIndex(userId, members[1..]);
      }
    }
  }

  /** The room-entry effect: only a selected room loads members, and a missing opponent changes nothing. */
  function ApplyRoomMembers(ui: Ui, members: seq<Member>): (r: Ui)
    ensures ui.roomId == 0 ==> r == ui
    ensures ui.roomId != 0 && Opponent(ui.userId, members).Some? ==>
      r == ui.(opponentId := Opponent(ui.userId, members).value)
    ensures Opponent(ui.userId, members).None? ==> r == ui
  {
    if ui.roomId == 0 then ui
    else match Opponent(ui.userId, members)
      case Some(o) => ui.(opponentId := o)
      case None => ui
  }

  // ---------------------------------------------------------------------------
  // Create or invite
  // ---------------------------------------------------------------------------

  /** `selected.reduce((acc, cur) => [...acc, cur.user_id], acc)`. */
  function ReduceIds(acc: seq<int>, selected: seq<Member>): seq<int>
    decreases |selected|
  {
    if |selected| == 0 then acc else ReduceIds(acc + [selected[0].userId], selected[1..])
  }

  /** The selected users' ids, in selection order. */
  function SelectedIds(selected: seq<Member>): (ids: seq<int>)
    ensures |ids| == |selected|
    ensures forall i :: 0 <= i < |selected| ==> ids[i] == selected[i].userId
  {
    seq(|selected|, i requires 0 <= i < |selected| => selected[i].userId)
  }

  /** The reduce appends the selected ids to the accumulator, in order. */
  lemma {:induction false} ReduceIdsAppends(acc: seq<int>, selected: seq<Member>)
    ensures ReduceIds(acc, selected) == acc + SelectedIds(selected)
    decreases |selected|
  {
    if |selected| > 0 {
      ReduceIdsAppends(acc + [selected[0].userId], selected[1..]);
      assert SelectedIds(selected) == [selected[0].userId] + SelectedIds(selected[1..]);
    }
  }

  /** `handleChangeUserSelect`: a null selection keeps the previous one. */
  function ChangeUserSelect(ui: Ui, selected: Option<seq<Member>>): (r: Ui)
    ensures selected.None? ==> r == ui
    ensures selected.Some? ==> r == ui.(selected := selected.value)
  {
    match selected
    case Some(s) => ui.(selected := s)
    case None => ui
  }

  /**
   * `handleCreateOrInviteRoom`: an empty selection only alerts; on the list a
   * room is created for the user followed by the selected users; in a room
   * only the selected users are invited.
   */
  function CreateOrInvite(ui: Ui): (c: Command)
    ensures |ui.selected| == 0 <==> c == Alert(SelectUserAlert)
    ensures |ui.selected| > 0 && ui.route == ChatList ==>
      c == Post(CreateRoom([ui.userId] + SelectedIds(ui.selected)))
    ensures |ui.selected| > 0 && ui.route == ChatRoom ==>
      c == Post(InviteRoom(ui.roomId, SelectedIds(ui.selected)))
  {
    if |ui.selected| > 0 then
      ReduceIdsAppends([ui.userId], ui.selected);
      ReduceIdsAppends([], ui.selected);
      assert [] + SelectedIds(ui.selected) == SelectedIds(ui.selected);
      if ui.route == ChatList then Post(CreateRoom(ReduceIds([ui.userId], ui.selected)))
      else Post(InviteRoom(ui.roomId, ReduceIds([], ui.selected)))
    else
      Alert(SelectUserAlert)
  }

  /**
   * `handleToChatRoom`: entering a room selects it and shows the room view,
   * then the room's member list replaces `roomUserList`. A rejected member
   * fetch (None) leaves the previous list in place.
   */
  function ToChatRoom(ui: Ui, roomId: int, roomName: string, members: Option<seq<Member>>): (r: Ui)
    ensures r.route == ChatRoom && r.roomId == roomId && r.roomName == roomName
    ensures members.Some? ==> r.roomMembers == members.value
    ensures members.None? ==> r.roomMembers == ui.roomMembers
    ensures r.(route := ui.route, roomId := ui.roomId, roomName := ui.roomName, roomMembers := ui.roomMembers) == ui
  {
    var entered := ui.(roomId := roomId, roomName := roomName, route := ChatRoom);
    match members
    case Some(m) => entered.(roomMembers := m)
    case None => entered
  }

  // ---------------------------------------------------------------------------
  // Title, menu, back and leave
  // ---------------------------------------------------------------------------

  /**
   * `handleChangeTitle`: a non-empty title is posted, and shown once the
   * server accepts it; an empty one does nothing.
   */
  function ChangeTitle(ui: Ui, title: string, accepted: bool): (r: (Ui, Option<Request>))
    ensures |title| == 0 ==> r == (ui, None)
    ensures |title| > 0 ==> r.1 == Some(ModifyRoomName(ui.roomId, title))
    ensures |title| > 0 && accepted ==> r.0 == ui.(roomName := title)
    ensures !accepted ==> r.0 == ui
  {
    if |title| > 0 then
      (if accepted then ui.(roomName := title) else ui, Some(ModifyRoomName(ui.roomId, title)))
    else (ui, None)
  }

  /**
   * The room menu's invite item: in a room whose loaded member list has two
   * entries the leader sends a team invitation and anyone else is told only
   * leaders may; otherwise the invite modal opens.
   */
  function InviteMenu(ui: Ui): (c: Command)
    ensures |ui.roomMembers| == 2 && ui.isLeader <==> c.TeamInvite?
    ensures c.TeamInvite? ==> c == TeamInvite(ui.teamId, ui.userId, ui.opponentId)
    ensures |ui.roomMembers| == 2 && !ui.isLeader <==> c == Alert(LeaderOnlyAlert)
    ensures |ui.roomMembers| != 2 <==> c == OpenInviteModal
  {
    if |ui.roomMembers| == 2 then
      if ui.isLeader then TeamInvite(ui.teamId, ui.userId, ui.opponentId) else Alert(LeaderOnlyAlert)
    else OpenInviteModal
  }

  /** The room menu's call item: a call link into the current room. */
  function CallMenu(ui: Ui): (c: Command)
    ensures c.CallLink? && c.isRoom
    ensures c.from == ui.userId && c.target == ui.roomId
  {
    CallLink(ui.userId, ui.roomId, true)
  }

  /**
   * The call item links the current room itself: no room is created, and the
   * link is published for, and navigates to, the selected room.
   */
  lemma CallMenuJoinsCurrentRoom(ui: Ui, c: SockStomp.Client, createdRoomId: Option<int>)
    ensures var cmd := CallMenu(ui);
      && cmd.CallLink? && cmd.from == ui.userId
      && var e := SockStomp.CallLinkEffects(c, cmd.from, cmd.target, cmd.isRoom, createdRoomId);
      && |e| == 4
      && e[1] == SockStomp.Publish(c, SockStomp.RtcDestination, SockStomp.RtcPayload(ui.userId, ui.roomId))
      && e[2] == SockStomp.Navigate(SockStomp.RtcPathPrefix + Strings.IntToDecimal(ui.roomId))
  {
  }

  /** The back arrow: the list shows again, but the room stays selected. */
  function Back(ui: Ui): (r: Ui)
    ensures r.route == ChatList && r.roomId == ui.roomId
    ensures r.(route := ui.route) == ui
  {
    ui.(route := ChatList)
  }

  /** Leaving a room: the leave request is posted and the list shows, the room id kept. */
  function Leave(ui: Ui): (r: (Ui, Request))
    ensures r.1 == LeaveRoom(ui.roomId, ui.userId)
    ensures r.0 == Back(ui)
  {
    (ui.(route := ChatList), LeaveRoom(ui.roomId, ui.userId))
  }

  /**
   * Back and leave do not themselves change the room id, so they ask nothing
   * of the chat session hook: its room effect is not re-run.
   */
  lemma BackKeepsChatSession(ui: Ui, s: SockStomp.Session)
    requires s.roomId == Some(ui.roomId)
    ensures SockStomp.ChangeRoom(s, Some(Back(ui).roomId)) == SockStomp.Outcome(s, [])
    ensures SockStomp.ChangeRoom(s, Some(Leave(ui).0.roomId)) == SockStomp.Outcome(s, [])
  {
  }

  /**
   * The room view's `setRoomId`, by contrast, does reach the hook: a new
   * non-zero id re-runs its room effect, which opens a client for that room.
   */
  lemma ChildRoomWriteRestartsSession(ui: Ui, s: SockStomp.Session, id: int)
    requires s.roomId == Some(ui.roomId) && id != ui.roomId && id != 0
    ensures var o := SockStomp.ChangeRoom(s, Some(Step(ui, ChildSetsRoom(id)).roomId));
      && o.session.roomId == Some(id)
      && |o.effects| > 0 && o.effects[|o.effects| - 1] == SockStomp.Open(SockStomp.Client(s.created))
  {
  }
  // ---------------------------------------------------------------------------
  // The widget as a state machine
  // ---------------------------------------------------------------------------

  /** Replies and user actions that change the widget's state, one at a time. */
  datatype Event =
    | TeamReply(reply: HasTeamReply)                                  // the team lookup returns
    | RoomUsers(members: seq<Member>)                                 // the opponent lookup returns
    | SelectUsers(selection: Option<seq<Member>>)                     // the autocomplete changes
    | EnterRoom(id: int, name: string, loaded: Option<seq<Member>>)   // a room is opened
    | TitleEdit(title: string, accepted: bool)                        // EDIT or Enter in the title box
    | GoBack                                                          // the back arrow
    | Leaving                                                         // the leave item
    | ChildSetsRoom(id: int)                                          // the room view calls `setRoomId`

  /**
   * Every event keeps the user. Only a room entry, or the room view's own call
   * of the `setRoomId` it is handed, changes the selected room; only a room
   * entry changes the loaded members.
   */
  function Step(ui: Ui, e: Event): (r: Ui)
    ensures r.userId == ui.userId
    ensures !e.EnterRoom? ==> r.roomMembers == ui.roomMembers
    ensures !e.EnterRoom? && !e.ChildSetsRoom? ==> r.roomId == ui.roomId
    ensures e.ChildSetsRoom? ==> r == ui.(roomId := e.id)
    ensures !e.EnterRoom? && !e.GoBack? && !e.Leaving? ==> r.route == ui.route
  {
    match e
    case TeamReply(reply) => ApplyHasTeam(ui, reply)
    case RoomUsers(members) => ApplyRoomMembers(ui, members)
    case SelectUsers(selection) => ChangeUserSelect(ui, selection)
    case EnterRoom(id, name, loaded) => ToChatRoom(ui, id, name, loaded)
    case TitleEdit(title, accepted) => ChangeTitle(ui, title, accepted).0
    case GoBack => Back(ui)
    case Leaving => Leave(ui).0
    case ChildSetsRoom(id) => ui.(roomId := id)
  }

  function Run(ui: Ui, events: seq<Event>): Ui
    decreases |events|
  {
    if |events| == 0 then ui else Run(Step(ui, events[0]), events[1..])
  }

  lemma {:induction false} RunKeepsUser(ui: Ui, events: seq<Event>)
    ensures Run(ui, events).userId == ui.userId
    decreases |events|
  {
    if |events| > 0 {
      RunKeepsUser(Step(ui, events[0]), events[1..]);
    }
  }

  /** A team-lookup reply that names `userId` as the leader of its team. */
  predicate LedBy(e: Event, userId: int) {
    e.TeamReply? && e.reply.hasTeam && e.reply.team.Some? && e.reply.team.value.leaderId == userId
  }

  /** The team of the last reply in `events` that names `userId` as leader. */
  function LastLedTeam(userId: int, events: seq<Event>): Option<int>
    decreases |events|
  {
    if |events| == 0 then None
    else match LastLedTeam(userId, events[1..])
      case Some(t) => Some(t)
      case None => if LedBy(events[0], userId) then Some(events[0].reply.team.value.id) else None
  }

  /**
   * Leader state after any run: it holds exactly when it held before or some
   * reply named the user as leader, and the team id is that of the last such
   * reply.
   */
  lemma RunLeader(ui: Ui, events: seq<Event>)
    ensures Run(ui, events).isLeader <==>
      ui.isLeader || exists i :: 0 <= i < |events| && LedBy(events[i], ui.userId)
    ensures LastLedTeam(ui.userId, events).Some? ==> Run(ui, events).teamId == LastLedTeam(ui.userId, events).value
    ensures LastLedTeam(ui.userId, events).None? ==> Run(ui, events).teamId == ui.teamId
  {
    RunFollowsLastLedTeam(ui, events);
    LedTeamExists(ui.userId, events);
  }

  /** The leader state and team id after a run, in terms of the last reply that named the user. */
  lemma {:induction false} RunFollowsLastLedTeam(ui: Ui, events: seq<Event>)
    ensures Run(ui, events).isLeader <==> ui.isLeader || LastLedTeam(ui.userId, events).Some?
    ensures LastLedTeam(ui.userId, events).Some? ==> Run(ui, events).teamId == LastLedTeam(ui.userId, events).value
    ensures LastLedTeam(ui.userId, events).None? ==> Run(ui, events).teamId == ui.teamId
    decreases |events|
  {
    if |events| > 0 {
      RunFollowsLastLedTeam(Step(ui, events[0]), events[1..]);
    }
  }

  /**
   * From the widget's first render, the invite item sends a team invitation
   * only when some team-lookup reply named the user as leader, and then for
   * the team of the last such reply.
   */
  lemma TeamInviteUsesLedTeam(userId: int, events: seq<Event>)
    ensures var c := InviteMenu(Run(Initial(userId), events));
      c.TeamInvite? ==>
        && (exists i :: 0 <= i < |events| && LedBy(events[i], userId))
        && LastLedTeam(userId, events).Some?
        && c.teamId == LastLedTeam(userId, events).value
        && c.from == userId
  {
    RunLeader(Initial(userId), events);
    RunKeepsUser(Initial(userId), events);
    LedTeamExists(userId, events);
  }

  /** Some reply names the user as leader exactly when there is a last one. */
  lemma {:induction false} LedTeamExists(userId: int, events: seq<Event>)
    ensures LastLedTeam(userId, events).Some? <==> exists i :: 0 <= i < |events| && LedBy(events[i], userId)
    decreases |events|
  {
    if |events| > 0 {
      LedTeamExists(userId, events[1..]);
      if exists i :: 0 <= i < |events| && LedBy(events[i], userId) {
        var i :| 0 <= i < |events| && LedBy(events[i], userId);
        if i > 0 {
          assert LedBy(events[1..][i - 1], userId);
        }
      }
      if exists i :: 0 <= i < |events[1..]| && LedBy(events[1..][i], userId) {
        var i :| 0 <= i < |events[1..]| && LedBy(events[1..][i], userId);
        assert LedBy(events[i + 1], userId);
      }
    }
  }

  /** An event that shows `name` as the room title: a room entry, or a non-empty title the server accepted. */
  predicate NamesRoom(e: Event, name: string) {
    || (e.EnterRoom? && e.name == name)
    || (e.TitleEdit? && e.accepted && |e.title| > 0 && e.title == name)
  }

  /** The title shown after any run is the one before it or one some event showed. */
  lemma {:induction false} RoomNameProvenance(ui: Ui, events: seq<Event>)
    ensures var name := Run(ui, events).roomName;
      name == ui.roomName || exists i :: 0 <= i < |events| && NamesRoom(events[i], name)
    decreases |events|
  {
    if |events| > 0 {
      var next := Step(ui, events[0]);
      var name := Run(ui, events).roomName;
      RoomNameProvenance(next, events[1..]);
      if name != next.roomName {
        var i :| 0 <= i < |events[1..]| && NamesRoom(events[1..][i], name);
        assert NamesRoom(events[i + 1], name);
      } else if name != ui.roomName {
        assert NamesRoom(events[0], name);
      }
    }
  }

  /** Title edits never blank the title: it is empty only if it started empty or a room with an empty name was entered. */
  lemma TitleNeverBlanked(ui: Ui, events: seq<Event>)
    requires forall i :: 0 <= i < |events| && events[i].EnterRoom? ==> |events[i].name| > 0
    requires |ui.roomName| > 0
    ensures |Run(ui, events).roomName| > 0
  {
    RoomNameProvenance(ui, events);
  }

  /** The last non-null selection in `events`, if any. */
  function LastSelection(events: seq<Event>): Option<seq<Member>>
    decreases |events|
  {
    if |events| == 0 then None
    else match LastSelection(events[1..])
      case Some(s) => Some(s)
      case None => if events[0].SelectUsers? then events[0].selection else None
  }

  /** The selection after any run is the last non-null one, or the one before if there was none. */
  lemma {:induction false} RunSelection(ui: Ui, events: seq<Event>)
    ensures LastSelection(events).Some? ==> Run(ui, events).selected == LastSelection(events).value
    ensures LastSelection(events).None? ==> Run(ui, events).selected == ui.selected
    decreases |events|
  {
    if |events| > 0 {
      RunSelection(Step(ui, events[0]), events[1..]);
    }
  }

  /** Whether `e` changes which room is selected or which view shows. */
  predicate Navigates(e: Event) {
    e.EnterRoom? || e.GoBack? || e.Leaving? || e.ChildSetsRoom?
  }

  /** Runs without navigation keep the room, its loaded members and the view. */
  lemma {:induction false} RunKeepsView(ui: Ui, events: seq<Event>)
    requires forall i :: 0 <= i < |events| ==> !Navigates(events[i])
    ensures var r := Run(ui, events);
      r.roomId == ui.roomId && r.route == ui.route && r.roomMembers == ui.roomMembers
    decreases |events|
  {
    if |events| > 0 {
      assert !Navigates(events[0]);
      RunKeepsView(Step(ui, events[0]), events[1..]);
    }
  }

  /**
   * After entering a room, whatever selection the user then makes is invited
   * into that room (not into a new one) until the widget navigates again.
   */
  lemma InviteTargetsEnteredRoom(ui: Ui, id: int, name: string, loaded: Option<seq<Member>>, events: seq<Event>)
    requires forall i :: 0 <= i < |events| ==> !Navigates(events[i])
    ensures var r := Run(Step(ui, EnterRoom(id, name, loaded)), events);
      |r.selected| > 0 ==> CreateOrInvite(r) == Post(InviteRoom(id, SelectedIds(r.selected)))
  {
    RunKeepsView(Step(ui, EnterRoom(id, name, loaded)), events);
  }

  /**
   * After the back arrow or leaving, the button creates a new room for the
   * user and the selected users until a room is entered again.
   */
  lemma CreateAfterLeavingRoom(ui: Ui, exit: Event, events: seq<Event>)
    requires exit.GoBack? || exit.Leaving?
    requires forall i :: 0 <= i < |events| ==> !Navigates(events[i])
    ensures var r := Run(Step(ui, exit), events);
      |r.selected| > 0 ==> CreateOrInvite(r) == Post(CreateRoom([ui.userId] + SelectedIds(r.selected)))
  {
    RunKeepsView(Step(ui, exit), events);
    RunKeepsUser(Step(ui, exit), events);
  }

  /**
   * Entering a room with a loaded member list keeps that room and that list
   * until the widget navigates again.
   */
  lemma EnteredRoomKeepsMembers(ui: Ui, id: int, name: string, members: seq<Member>, events: seq<Event>)
    requires forall i :: 0 <= i < |events| ==> !Navigates(events[i])
    ensures var r := Run(Step(ui, EnterRoom(id, name, Some(members))), events);
      r.roomId == id && r.roomMembers == members
  {
    RunKeepsView(Step(ui, EnterRoom(id, name, Some(members))), events);
  }

  /**
   * The invite item of a room just entered counts that room's loaded members:
   * with two of them it is the team invite or the leader-only alert.
   */
  lemma InviteMenuCountsEnteredRoom(ui: Ui, id: int, name: string, members: seq<Member>, events: seq<Event>)
    requires forall i :: 0 <= i < |events| ==> !Navigates(events[i])
    requires |members| == 2
    ensures InviteMenu(Run(Step(ui, EnterRoom(id, name, Some(members))), events)) != OpenInviteModal
  {
    EnteredRoomKeepsMembers(ui, id, name, members, events);
  }
}

=== FILE: js.dfy ===
/** JavaScript truthiness of the optional values the client tests with `if (x)` or `x && …`. */
module Js {
  import opened Wrappers

  /** A number is falsy when it is undefined or 0. */
  predicate TruthyNumber(x: Option<int>) {
    x.Some? && x.value != 0
  }

  /** A boolean is falsy when it is undefined or false. */
  predicate TruthyBool(b: Option<bool>) {
    b == Some(true)
  }
}

=== FILE: lists.dfy ===
/**
 * `indexOf` and the one-element `splice` at that index, the list edits the
 * lookup filters and the video subscriber list both rely on, and the
 * subsequence relation the filters keep.
 */
module Lists {

  /** `xs.indexOf(x)` for an `x` that occurs in `xs`: the position of its first occurrence. */
  function IndexOf<T(==)>(xs: seq<T>, x: T): (i: nat)
    requires x in xs
    ensures i < |xs| && xs[i] == x
    ensures forall j :: 0 <= j < i ==> xs[j] != x
  {
    if xs[0] == x then 0 else 1 + IndexOf(xs[1..], x)
  }

  /** `xs.splice(xs.indexOf(x), 1)` when `x` occurs, otherwise `xs` itself. */
  function RemoveFirst<T(==)>(xs: seq<T>, x: T): (r: seq<T>)
    ensures x !in xs ==> r == xs
    ensures x in xs ==> r == xs[..IndexOf(xs, x)] + xs[IndexOf(xs, x) + 1..]
  {
    if x in xs then xs[..IndexOf(xs, x)] + xs[IndexOf(xs, x) + 1..] else xs
  }

  /** Removing the first occurrence takes exactly one copy out of the multiset. */
  lemma RemoveFirstMultiset<T>(xs: seq<T>, x: T)
    ensures x in xs ==> multiset(RemoveFirst(xs, x)) == multiset(xs) - multiset{x}
    ensures |RemoveFirst(xs, x)| == if x in xs then |xs| - 1 else |xs|
  {
    if x in xs {
      var i := IndexOf(xs, x);
      assert xs == xs[..i] + [x] + xs[i + 1..];
      assert multiset(xs) == multiset(xs[..i]) + multiset{x} + multiset(xs[i + 1..]);
    }
  }

  /** Removing what was just appended to a list that lacked it gives the list back. */
  lemma RemoveAppended<T>(xs: seq<T>, x: T)
    requires x !in xs
    ensures RemoveFirst(xs + [x], x) == xs
  {
    assert (xs + [x])[..|xs|] == xs;
  }

  /** `a` can be obtained from `b` by deleting elements: same order, no element invented. */
  predicate IsSubsequence<T(==)>(a: seq<T>, b: seq<T>)
    decreases |b|
  {
    |a| == 0 || (|b| > 0 && ((a[0] == b[0] && IsSubsequence(a[1..], b[1..])) || IsSubsequence(a, b[1..])))
  }

  /** How many times `x` occurs in `xs`. */
  function Count<T(==)>(xs: seq<T>, x: T): nat
    decreases |xs|
  {
    if |xs| == 0 then 0 else (if xs[0] == x then 1 else 0) + Count(xs[1..], x)
  }

  /** The count is the multiplicity in the list's multiset. */
  lemma {:induction false} CountIsMultiplicity<T>(xs: seq<T>, x: T)
    ensures Count(xs, x) == multiset(xs)[x]
    decreases |xs|
  {
    if |xs| > 0 {
      CountIsMultiplicity(xs[1..], x);
      assert xs == [xs[0]] + xs[1..];
    }
  }

  /** Counts add up over a concatenation. */
  lemma {:induction false} CountAppend<T>(a: seq<T>, b: seq<T>, x: T)
    ensures Count(a + b, x) == Count(a, x) + Count(b, x)
    decreases |a|
  {
    if |a| > 0 {
      CountAppend(a[1..], b, x);
      assert (a + b)[1..] == a[1..] + b;
    } else {
      assert a + b == b;
    }
  }

  predicate NoDuplicates<T(==)>(xs: seq<T>) {
    forall i, j :: 0 <= i < j < |xs| ==> xs[i] != xs[j]
  }

  /** Removing an element keeps a duplicate-free list duplicate-free, and the element is gone. */
  lemma RemoveFirstNoDuplicates<T>(xs: seq<T>, x: T)
    requires NoDuplicates(xs)
    ensures NoDuplicates(RemoveFirst(xs, x))
    ensures x !in RemoveFirst(xs, x)
  {
    if x in xs {
      RemoveAtNoDuplicates(xs, IndexOf(xs, x));
    }
  }

  /** Dropping position `i` of a duplicate-free list leaves a duplicate-free list without `xs[i]`. */
  lemma RemoveAtNoDuplicates<T>(xs: seq<T>, i: nat)
    requires i < |xs| && NoDuplicates(xs)
    ensures NoDuplicates(xs[..i] + xs[i + 1..])
    ensures xs[i] !in xs[..i] + xs[i + 1..]
  {
    var r := xs[..i] + xs[i + 1..];
    RemoveAtIndex(xs, i);
    forall a, b | 0 <= a < b < |r|
      ensures r[a] != r[b]
    {
      var a', b' := if a < i then a else a + 1, if b < i then b else b + 1;
      assert r[a] == xs[a'] && r[b] == xs[b'];
    }
    forall k | 0 <= k < |r|
      ensures r[k] != xs[i]
    {
      var k' := if k < i then k else k + 1;
      assert r[k] == xs[k'];
    }
  }

  /** The element at position `k` of `xs[..i] + xs[i + 1..]`. */
  lemma RemoveAtIndex<T>(xs: seq<T>, i: nat)
    requires i < |xs|
    ensures var r := xs[..i] + xs[i + 1..];
      |r| == |xs| - 1 && forall k :: 0 <= k < |r| ==> r[k] == (if k < i then xs[k] else xs[k + 1])
  {
  }
}

=== FILE: react_table.dfy ===
/**
 * The decision rules of the generic data grid (`ReactTable`): the "text"
 * column filter, the mapping from the filter input box to a filter value, the
 * header-click sort cycle, and whether the selection/action column is shown.
 * The table library itself is not modelled; `String(value)` is abstracted by
 * letting every cell carry its string rendering.
 */
module ReactTable {
  import opened Wrappers
  import Strings
  import Js
  import Lists

  /** A row: the record it was built from, and its cell values by column id (a missing id is undefined). */
  datatype Row = Row(original: map<string, string>, values: map<string, string>)

  // ---------------------------------------------------------------------------
  // The "text" filter type
  // ---------------------------------------------------------------------------

  /** The per-row test of the "text" filter on column `id` with filter value `fv`. */
  predicate TextMatch(row: Row, id: string, fv: string) {
    id !in row.values || Strings.StartsWith(Strings.Lower(row.values[id]), Strings.Lower(fv))
  }

  /**
   * `filterTypes.text`: keeps the rows whose value in column `id` is undefined
   * or starts with the filter value, ignoring ASCII case.
   */
  function TextFilter(rows: seq<Row>, id: string, fv: string): (r: seq<Row>)
    ensures |r| <= |rows|
    ensures forall x :: x in r ==> x in rows && TextMatch(x, id, fv)
    ensures forall x :: x in rows && TextMatch(x, id, fv) ==> x in r
    ensures forall x :: x in rows && id !in x.values ==> x in r
  {
    if |rows| == 0 then []
    else (if TextMatch(rows[0], id, fv) then [rows[0]] else []) + TextFilter(rows[1..], id, fv)
  }

  /** Each kept row appears as many times as in the input. */
  lemma {:induction false} TextFilterCount(rows: seq<Row>, id: string, fv: string, x: Row)
    ensures Lists.Count(TextFilter(rows, id, fv), x) == if TextMatch(x, id, fv) then Lists.Count(rows, x) else 0
    decreases |rows|
  {
    if |rows| > 0 {
      TextFilterCount(rows[1..], id, fv, x);
      var h := if TextMatch(rows[0], id, fv) then [rows[0]] else [];
      assert TextFilter(rows, id, fv) == h + TextFilter(rows[1..], id, fv);
      Lists.CountAppend(h, TextFilter(rows[1..], id, fv), x);
    }
  }

  /** The filtered rows appear in the input, in their original order. */
  lemma {:induction false} TextFilterIsSubsequence(rows: seq<Row>, id: string, fv: string)
    ensures Lists.IsSubsequence(TextFilter(rows, id, fv), rows)
  {
    if |rows| > 0 {
      TextFilterIsSubsequence(rows[1..], id, fv);
      var rest := TextFilter(rows[1..], id, fv);
      if TextMatch(rows[0], id, fv) {
        assert TextFilter(rows, id, fv) == [rows[0]] + rest;
        assert ([rows[0]] + rest)[1..] == rest;
      } else {
        assert TextFilter(rows, id, fv) == rest;
      }
    }
  }

  /** Rows that all pass the test come through unchanged. */
  lemma {:induction false} TextFilterKeepsMatching(rows: seq<Row>, id: string, fv: string)
    requires forall i :: 0 <= i < |rows| ==> TextMatch(rows[i], id, fv)
    ensures TextFilter(rows, id, fv) == rows
  {
    if |rows| > 0 {
      TextFilterKeepsMatching(rows[1..], id, fv);
      assert [rows[0]] + rows[1..] == rows;
    }
  }

  /** Filtering twice with the same value is filtering once. */
  lemma TextFilterIdempotent(rows: seq<Row>, id: string, fv: string)
    ensures TextFilter(TextFilter(rows, id, fv), id, fv) == TextFilter(rows, id, fv)
  {
    var once := TextFilter(rows, id, fv);
    assert forall i :: 0 <= i < |once| ==> once[i] in once;
    TextFilterKeepsMatching(once, id, fv);
  }

  /** The empty filter value keeps every row. */
  lemma EmptyTextFilterKeepsAll(rows: seq<Row>, id: string)
    ensures TextFilter(rows, id, "") == rows
  {
    TextFilterKeepsMatching(rows, id, "");
  }

  // ---------------------------------------------------------------------------
  // Filter input boxes
  // ---------------------------------------------------------------------------

  /** `value || undefined`: the empty string removes the filter entirely. */
  function FilterInput(text: string): (r: Option<string>)
    ensures r.None? <==> text == ""
    ensures r.Some? ==> r.value == text
  {
    if text == "" then None else Some(text)
  }

  /** What the input box shows for a filter value: `filterValue || ''`. */
  function InputDisplay(fv: Option<string>): (r: string)
    ensures r == "" <==> fv.None? || fv == Some("")
    ensures r != "" ==> fv == Some(r)
  {
    fv.GetOr("")
  }

  /** Typing `text` and reading the box back gives `text`. */
  lemma InputRoundTrip(text: string)
    ensures InputDisplay(FilterInput(text)) == text
  {
  }

  /** A filter value the box can hold survives being shown and re-entered. */
  lemma FilterValueRoundTrip(fv: Option<string>)
    requires fv != Some("")
    ensures FilterInput(InputDisplay(fv)) == fv
  {
  }

  /** The table applies a column filter only when one is set. */
  function ApplyColumnFilter(rows: seq<Row>, id: string, fv: Option<string>): (r: seq<Row>)
    ensures fv.None? ==> r == rows
    ensures forall x :: x in r <==> x in rows && (fv.None? || TextMatch(x, id, fv.value))
  {
    match fv
    case None => rows
    case Some(v) => TextFilter(rows, id, v)
  }

  /** Clearing a filter through the box filters exactly as the typed text would. */
  lemma FilterInputTransparent(rows: seq<Row>, id: string, text: string)
    ensures ApplyColumnFilter(rows, id, FilterInput(text)) == TextFilter(rows, id, text)
    ensures text == "" ==> ApplyColumnFilter(rows, id, FilterInput(text)) == rows
  {
    if text == "" {
      EmptyTextFilterKeepsAll(rows, id);
    }
  }

  // ---------------------------------------------------------------------------
  // Header-click sort cycle
  // ---------------------------------------------------------------------------

  /** `isSortedDesc`: None is unsorted, Some(false) ascending, Some(true) descending. */
  type SortState = Option<bool>

  /** The `desc` argument a header click passes for the column's current state. */
  function NextSortDesc(cur: SortState): SortState {
    match cur
    case None => Some(false)
    case Some(false) => Some(true)
    case Some(true) => None
  }

  /** Clicks cycle unsorted -> ascending -> descending -> unsorted; no click leaves the state alone. */
  lemma SortCycle(cur: SortState)
    ensures NextSortDesc(cur) != cur
    ensures NextSortDesc(NextSortDesc(NextSortDesc(cur))) == cur
    ensures NextSortDesc(None) == Some(false) && NextSortDesc(Some(false)) == Some(true)
    ensures NextSortDesc(Some(true)) == None
  {
  }

  datatype Column = Column(id: string, canSort: bool, isSortedDesc: SortState)

  /** The `toggleSortBy(desc, multi)` call a header click makes. */
  datatype SortRequest = SortRequest(desc: SortState, multi: bool)

  /** A header click asks for the next sort state, always in multi-sort mode, and only on a sortable column. */
  function HeaderClick(col: Column): (r: Option<SortRequest>)
    ensures r.Some? <==> col.canSort
    ensures r.Some? ==> r.value.multi && r.value.desc != col.isSortedDesc
    ensures r.Some? && col.isSortedDesc.None? ==> r.value.desc == Some(false)
    ensures r.Some? && col.isSortedDesc == Some(false) ==> r.value.desc == Some(true)
    ensures r.Some? && col.isSortedDesc == Some(true) ==> r.value.desc.None?
  {
    if col.canSort then Some(SortRequest(NextSortDesc(col.isSortedDesc), true)) else None
  }

  /** The column after a header click. */
  function ClickHeader(col: Column): Column {
    match HeaderClick(col)
    case None => col
    case Some(req) => col.(isSortedDesc := req.desc)
  }

  /** Three clicks on a sortable column bring it back to where it started. */
  lemma ThreeClicksRestore(col: Column)
    ensures ClickHeader(ClickHeader(ClickHeader(col))) == col
  {
    SortCycle(col.isSortedDesc);
  }

  // ---------------------------------------------------------------------------
  // Selection / action column
  // ---------------------------------------------------------------------------

  /** `selectable.type`: which action icons a row shows (undefined is None). */
  datatype ActionTypes = ActionTypes(edit: Option<bool>, delete: Option<bool>)

  /** The `selectable` prop: absent, a bare boolean (as some callers pass), or the configuration object. */
  datatype SelectableProp =
    | Absent
    | Flag(flag: bool)
    | Config(selectable: bool, types: Option<ActionTypes>)

  datatype GridColumn = SelectionColumn | DataColumn(id: string)

  /** `selectable?.selectable && onSelectRow`; the property of a boolean reads as undefined. */
  predicate SelectionEnabled(sel: SelectableProp, hasOnSelectRow: bool) {
    sel.Config? && sel.selectable && hasOnSelectRow
  }

  /** The visible-columns hook: the selection column goes in front when enabled. */
  function VisibleColumns(cols: seq<GridColumn>, sel: SelectableProp, hasOnSelectRow: bool): (r: seq<GridColumn>)
    ensures !SelectionEnabled(sel, hasOnSelectRow) ==> r == cols
    ensures SelectionEnabled(sel, hasOnSelectRow) ==>
      |r| == |cols| + 1 && r[0] == SelectionColumn && r[1..] == cols
  {
    if SelectionEnabled(sel, hasOnSelectRow) then [SelectionColumn] + cols else cols
  }

  /** A caller that passes a boolean as `selectable` never gets the selection column. */
  lemma BooleanSelectableNeverShows(cols: seq<GridColumn>, flag: bool, hasOnSelectRow: bool)
    ensures VisibleColumns(cols, Flag(flag), hasOnSelectRow) == cols
  {
  }

  datatype ActionKind = Edit | Delete

  /** What `onSelectRow` receives: the action and a copy of the row's record. */
  datatype RowAction = RowAction(kind: ActionKind, data: map<string, string>)

  /**
   * The actions a row's selection cell offers, edit before delete, each
   * carrying a copy of the row's original record.
   */
  function RowActions(types: Option<ActionTypes>, row: Row): (r: seq<RowAction>)
    ensures forall i :: 0 <= i < |r| ==> r[i].data == row.original
    ensures RowAction(Edit, row.original) in r <==> types.Some? && Js.TruthyBool(types.value.edit)
    ensures RowAction(Delete, row.original) in r <==> types.Some? && Js.TruthyBool(types.value.delete)
    ensures |r| <= 2 && (|r| == 2 ==> r[0].kind == Edit && r[1].kind == Delete)
  {
    match types
    case None => []
    case Some(t) =>
      (if Js.TruthyBool(t.edit) then [RowAction(Edit, row.original)] else [])
        + (if Js.TruthyBool(t.delete) then [RowAction(Delete, row.original)] else [])
  }
  /**
   * The actions one visible cell renders: the selection cell shows the row's
   * action icons, a data cell none. Outside a configuration object no cell
   * has icons to show.
   */
  function CellActions(col: GridColumn, sel: SelectableProp, row: Row): seq<RowAction> {
    if col.SelectionColumn? && sel.Config? then RowActions(sel.types, row) else []
  }

  /** The actions a rendered row offers, cell by cell in column order. */
  function RenderedActions(cols: seq<GridColumn>, sel: SelectableProp, row: Row): seq<RowAction>
    decreases |cols|
  {
    if |cols| == 0 then [] else CellActions(cols[0], sel, row) + RenderedActions(cols[1..], sel, row)
  }

  /** Data cells render no actions. */
  lemma {:induction false} DataCellsRenderNoActions(cols: seq<GridColumn>, sel: SelectableProp, row: Row)
    requires forall i :: 0 <= i < |cols| ==> cols[i].DataColumn?
    ensures RenderedActions(cols, sel, row) == []
    decreases |cols|
  {
    if |cols| > 0 {
      DataCellsRenderNoActions(cols[1..], sel, row);
    }
  }

  /**
   * A row of the table offers actions only when the selection column was
   * added, and then exactly the ones its selection cell shows.
   */
  lemma RowOffersActionsOnlyWhenSelectable(cols: seq<GridColumn>, sel: SelectableProp, hasOnSelectRow: bool, row: Row)
    requires forall i :: 0 <= i < |cols| ==> cols[i].DataColumn?
    ensures var r := RenderedActions(VisibleColumns(cols, sel, hasOnSelectRow), sel, row);
      && (!SelectionEnabled(sel, hasOnSelectRow) ==> r == [])
      && (SelectionEnabled(sel, hasOnSelectRow) ==> r == RowActions(sel.types, row))
      && (|r| > 0 ==> SelectionEnabled(sel, hasOnSelectRow))
  {
    DataCellsRenderNoActions(cols, sel, row);
    if SelectionEnabled(sel, hasOnSelectRow) {
      var vis := VisibleColumns(cols, sel, hasOnSelectRow);
      assert vis[1..] == cols;
      assert RenderedActions(vis, sel, row) == RowActions(sel.types, row) + [];
    }
  }
}

=== FILE: sock_stomp.dfy ===
/**
 * The chat session hook (`useSockStomp`). One mutable connection slot
 * (`clientRef.current`) is shared by the room effect and the call-link path.
 * The room effect opens a client, and on connect it fetches the room's history,
 * replaces the message list with it and subscribes to the room topic; every
 * delivered frame is appended. The transport is abstract: its callbacks arrive
 * as events, and what the hook asks of it comes back as a list of effects.
 */
module SockStomp {
  import opened Wrappers
  import Strings
  import Js

  const ChatDestination: string := "/send/chat/message"
  const RtcDestination: string := "/send/chat/messageRTC"
  const RoomTopicPrefix: string := "/receive/chat/room/"
  const RtcPathPrefix: string := "rtc/"

  /** A message as the chat view keeps it (`ChatNormal`). */
  datatype ChatMessage = ChatMessage(createDateTime: string, message: string, senderId: int, senderName: string)

  /** A parsed inbound frame body: the four fields the view keeps plus anything else the server sent. */
  datatype InboundFrame = InboundFrame(
    createDateTime: string,
    message: string,
    senderId: int,
    senderName: string,
    extra: map<string, string>)

  /** Outbound payloads. A `None` room id is `undefined`, which `JSON.stringify` drops. */
  datatype Payload =
    | ChatPayload(roomId: Option<int>, senderId: int, message: string)
    | RtcPayload(userId: int, rtcRoomId: int)

  /** A STOMP client object, identified by the order in which the hook created it. */
  datatype Client = Client(serial: nat)

  /** What the hook asks of its collaborators, in order. */
  datatype Effect =
    | Open(client: Client)
    | FetchHistory(roomId: int)
    | Subscribe(client: Client, topic: string)
    | Publish(client: Client, destination: string, payload: Payload)
    | CreateRoom(userId1: int, userId2: int)
    | Navigate(path: string)
    | Disconnect(client: Client)

  /** The room effect currently installed, with the room id its closures captured. */
  datatype Phase =
    | NoEffect
    | Connecting(client: Client, room: int)
    | Live(client: Client, room: int)

  datatype Session = Session(
    userId: int,
    roomId: Option<int>,          // the hook's `room_id` argument; None is undefined
    phase: Phase,
    slot: Option<Client>,         // clientRef.current
    created: nat,                 // clients created so far
    open: set<Client>,            // clients not yet disconnected
    topics: map<Client, int>,     // room whose topic each client subscribed to
    messages: seq<ChatMessage>,   // messageList
    isConnectStomp: bool)

  datatype Outcome = Outcome(session: Session, effects: seq<Effect>)

  /** Transport callbacks and user actions, delivered one at a time. */
  datatype Event =
    | RoomChanged(roomId: Option<int>)
    | Connected(history: seq<ChatMessage>)
    | Delivered(client: Client, frame: InboundFrame)
    | Send(body: string)
    | CallLink(from: int, target: int, isRoom: bool, createdRoomId: Option<int>)
    | MessagesSet(messages: seq<ChatMessage>)   // a caller of the returned `setMessageList`
    | Unmount

  function RoomTopic(roomId: int): string {
    RoomTopicPrefix + Strings.IntToDecimal(roomId)
  }

  /** Distinct rooms subscribe to distinct topics. */
  lemma RoomTopicInjective(a: int, b: int)
    ensures RoomTopic(a) == RoomTopic(b) <==> a == b
  {
    if RoomTopic(a) == RoomTopic(b) {
      Strings.AppendCancel(RoomTopicPrefix, Strings.IntToDecimal(a), Strings.IntToDecimal(b));
      Strings.IntToDecimalInjective(a, b);
    }
  }

  function Project(f: InboundFrame): ChatMessage {
    ChatMessage(f.createDateTime, f.message, f.senderId, f.senderName)
  }

  // ---------------------------------------------------------------------------
  // The room effect and its cleanup
  // ---------------------------------------------------------------------------

  function Initial(userId: int, roomId: Option<int>): Session {
    Session(userId, roomId, NoEffect, None, 0, {}, map[], [], true)
  }

  /**
   * The effect body: a fresh client goes into the slot only for a truthy room.
   * Only the phase, the slot, the client counter and the open set change.
   */
  function RunRoomEffect(s: Session): (o: Outcome)
    requires s.phase.NoEffect?
    ensures !Js.TruthyNumber(s.roomId) ==> o == Outcome(s, [])
    ensures Js.TruthyNumber(s.roomId) ==>
      var c := Client(s.created);
      && o.effects == [Open(c)]
      && o.session.slot == Some(c)
      && o.session.phase == Connecting(c, s.roomId.value)
      && o.session.open == s.open + {c}
      && o.session.created == s.created + 1
    ensures o.session.(phase := s.phase, slot := s.slot, created := s.created, open := s.open) == s
  {
    if Js.TruthyNumber(s.roomId) then
      var c := Client(s.created);
      Outcome(s.(phase := Connecting(c, s.roomId.value), slot := Some(c), created := s.created + 1,
                 open := s.open + {c}), [Open(c)])
    else
      Outcome(s, [])
  }

  /** The effect cleanup, if one was installed: it disconnects whatever the slot holds now. */
  function RunCleanup(s: Session): (o: Outcome)
    ensures o.session.phase.NoEffect?
    ensures o.session.(phase := s.phase, open := s.open) == s
    ensures s.phase.NoEffect? ==> o == Outcome(s, [])
    ensures !s.phase.NoEffect? && s.slot.None? ==> o.effects == [] && o.session.open == s.open
    ensures !s.phase.NoEffect? && s.slot.Some? ==>
      o.effects == [Disconnect(s.slot.value)] && o.session.open == s.open - {s.slot.value}
  {
    if s.phase.NoEffect? then Outcome(s, [])
    else match s.slot
      case None => Outcome(s.(phase := NoEffect), [])
      case Some(c) => Outcome(s.(phase := NoEffect, open := s.open - {c}), [Disconnect(c)])
  }

  /** First render: the effect runs once with the initial room id. */
  function Mount(userId: int, roomId: Option<int>): Outcome {
    RunRoomEffect(Initial(userId, roomId))
  }

  /**
   * A re-render with a new `room_id`: nothing happens if it is unchanged;
   * otherwise the previous cleanup runs before the new effect. The message list
   * is kept until the next history load replaces it.
   */
  function ChangeRoom(s: Session, roomId: Option<int>): (o: Outcome)
    ensures roomId == s.roomId ==> o == Outcome(s, [])
    ensures o.session.messages == s.messages
    ensures roomId != s.roomId ==> o.session.roomId == roomId
    ensures roomId != s.roomId && !Js.TruthyNumber(roomId) ==>
      o.session.phase.NoEffect? && forall i :: 0 <= i < |o.effects| ==> !o.effects[i].Open?
    ensures roomId != s.roomId && Js.TruthyNumber(roomId) ==>
      && |o.effects| > 0
      && o.effects[|o.effects| - 1] == Open(Client(s.created))
      && o.session.slot == Some(Client(s.created))
      && o.session.phase == Connecting(Client(s.created), roomId.value)
    ensures roomId != s.roomId && !s.phase.NoEffect? && s.slot.Some? ==>
      |o.effects| > 0 && o.effects[0] == Disconnect(s.slot.value)
    ensures roomId != s.roomId && !s.phase.NoEffect? && s.slot.Some? && Js.TruthyNumber(roomId) ==>
      o.effects == [Disconnect(s.slot.value), Open(Client(s.created))]
    ensures o.session.(roomId := s.roomId, phase := s.phase, slot := s.slot, created := s.created, open := s.open) == s
  {
    if roomId == s.roomId then Outcome(s, [])
    else
      var closed := RunCleanup(s);
      var started := RunRoomEffect(closed.session.(roomId := roomId));
      Outcome(started.session, closed.effects + started.effects)
  }

  // ---------------------------------------------------------------------------
  // Transport callbacks
  // ---------------------------------------------------------------------------

  /**
   * The connect callback of the room effect's client, once the history fetch
   * has returned `history`: the list is replaced wholesale, the flag is set,
   * and only then is the room topic subscribed on the client the slot holds.
   */
  function Connect(s: Session, history: seq<ChatMessage>): (o: Outcome)
    ensures !s.phase.Connecting? ==> o == Outcome(s, [])
    ensures s.phase.Connecting? ==>
      && o.session.messages == history
      && o.session.isConnectStomp
      && o.session.phase == Live(s.phase.client, s.phase.room)
      && |o.effects| >= 1 && o.effects[0] == FetchHistory(s.phase.room)
      && (s.slot.None? ==> o.effects == [FetchHistory(s.phase.room)])
      && (s.slot.Some? ==>
            && o.effects == [FetchHistory(s.phase.room), Subscribe(s.slot.value, RoomTopic(s.phase.room))]
            && s.slot.value in o.session.topics
            && o.session.topics[s.slot.value] == s.phase.room)
    ensures s.slot.None? ==> o.session.topics == s.topics
    ensures forall c :: c in s.topics && Some(c) != s.slot ==> c in o.session.topics && o.session.topics[c] == s.topics[c]
    ensures o.session.topics.Keys <= s.topics.Keys + (if s.slot.Some? then {s.slot.value} else {})
    ensures o.session.(messages := s.messages, isConnectStomp := s.isConnectStomp, phase := s.phase,
                       topics := s.topics) == s
  {
    match s.phase
    case Connecting(client, room) =>
      var s' := s.(messages := history, isConnectStomp := true, phase := Live(client, room));
      (match s.slot
       case None => Outcome(s', [FetchHistory(room)])
       case Some(c) =>
         Outcome(s'.(topics := s.topics[c := room]), [FetchHistory(room), Subscribe(c, RoomTopic(room))]))
    case _ => Outcome(s, [])
  }

  /** Whether a frame delivered on `c` reaches the subscription callback. */
  predicate Listening(s: Session, c: Client) {
    c in s.topics && c in s.open
  }

  /**
   * A frame delivered on a live subscription is projected onto its four chat
   * fields and appended after every earlier entry.
   */
  function Deliver(s: Session, c: Client, f: InboundFrame): (o: Outcome)
    ensures o.effects == []
    ensures |o.session.messages| >= |s.messages| && o.session.messages[..|s.messages|] == s.messages
    ensures Listening(s, c) ==>
      && |o.session.messages| == |s.messages| + 1
      && var m := o.session.messages[|s.messages|];
      && m.createDateTime == f.createDateTime && m.message == f.message
      && m.senderId == f.senderId && m.senderName == f.senderName
    ensures !Listening(s, c) ==> o.session == s
    ensures o.session.(messages := s.messages) == s
  {
    if Listening(s, c) then Outcome(s.(messages := s.messages + [Project(f)]), [])
    else Outcome(s, [])
  }

  // ---------------------------------------------------------------------------
  // Outbound sends
  // ---------------------------------------------------------------------------

  /** `handleSendMessage`: one chat payload to the fixed destination, or nothing without a client. */
  function SendMessage(s: Session, body: string): (o: Outcome)
    ensures o.session == s
    ensures s.slot.None? ==> o.effects == []
    ensures s.slot.Some? ==>
      o.effects == [Publish(s.slot.value, ChatDestination, ChatPayload(s.roomId, s.userId, body))]
  {
    match s.slot
    case None => Outcome(s, [])
    case Some(c) => Outcome(s, [Publish(c, ChatDestination, ChatPayload(s.roomId, s.userId, body))])
  }

  /**
   * Whether the connect callback of a call link runs to its end: a call into
   * a room always does, and a call to a user only when the create-room reply
   * carried a room id (`None` is a rejected request or a reply without
   * `data.data`, which ends the callback at its destructuring).
   */
  predicate CallCompletes(isRoom: bool, createdRoomId: Option<int>) {
    isRoom || createdRoomId.Some?
  }

  /** What a call link asks of the transport, on its own client `c`. */
  function CallLinkEffects(c: Client, from: int, target: int, isRoom: bool, createdRoomId: Option<int>): (e: seq<Effect>)
    ensures |e| >= 2 && e[0] == Open(c)
    ensures !isRoom ==> e[1] == CreateRoom(from, target)
    ensures CallCompletes(isRoom, createdRoomId) ==>
      var t := if isRoom then target else createdRoomId.value;
      && |e| >= 4 && e[|e| - 1] == Disconnect(c)
      && e[|e| - 3] == Publish(c, RtcDestination, RtcPayload(from, t))
      && e[|e| - 2] == Navigate(RtcPathPrefix + Strings.IntToDecimal(t))
    ensures !CallCompletes(isRoom, createdRoomId) ==> e == [Open(c), CreateRoom(from, target)]
    ensures isRoom <==> |e| == 4
    ensures Disconnect(c) in e <==> CallCompletes(isRoom, createdRoomId)
  {
    if isRoom then
      [Open(c), Publish(c, RtcDestination, RtcPayload(from, target)),
       Navigate(RtcPathPrefix + Strings.IntToDecimal(target)), Disconnect(c)]
    else
      match createdRoomId
      case None => [Open(c), CreateRoom(from, target)]
      case Some(t) =>
        [Open(c), CreateRoom(from, target), Publish(c, RtcDestination, RtcPayload(from, t)),
         Navigate(RtcPathPrefix + Strings.IntToDecimal(t)), Disconnect(c)]
  }

  /** The open clients after a call link on `c`: it is closed again only if the callback ran to its end. */
  function AfterCall(open: set<Client>, c: Client, completes: bool): set<Client> {
    if completes then open - {c} else open + {c}
  }

  /**
   * `handleSendRtcLink` as written: the new client is stored in the SAME slot
   * the chat session uses, and the slot is left holding it after it is
   * disconnected, or still connected when the room creation failed. Nothing
   * else of the session changes.
   */
  function SendRtcLinkAsWritten(s: Session, from: int, target: int, isRoom: bool, createdRoomId: Option<int>): (o: Outcome)
    ensures o.session.slot == Some(Client(s.created))
    ensures Client(s.created) in o.session.open <==> !CallCompletes(isRoom, createdRoomId)
    ensures o.session.(slot := s.slot, created := s.created)
         == s.(open := AfterCall(s.open, Client(s.created), CallCompletes(isRoom, createdRoomId)))
    ensures o.effects == CallLinkEffects(Client(s.created), from, target, isRoom, createdRoomId)
  {
    var c := Client(s.created);
    Outcome(s.(slot := Some(c), created := s.created + 1,
               open := AfterCall(s.open, c, CallCompletes(isRoom, createdRoomId))),
            CallLinkEffects(c, from, target, isRoom, createdRoomId))
  }

  /**
   * The call link on a client of its own: the session's slot is left alone,
   * and a call whose room creation failed leaves its client connected.
   */
  function SendRtcLink(s: Session, from: int, target: int, isRoom: bool, createdRoomId: Option<int>): (o: Outcome)
    ensures o.session.slot == s.slot
    ensures Client(s.created) in o.session.open <==> !CallCompletes(isRoom, createdRoomId)
    ensures o.session.(created := s.created)
         == s.(open := AfterCall(s.open, Client(s.created), CallCompletes(isRoom, createdRoomId)))
    ensures o.effects == CallLinkEffects(Client(s.created), from, target, isRoom, createdRoomId)
  {
    var c := Client(s.created);
    Outcome(s.(created := s.created + 1, open := AfterCall(s.open, c, CallCompletes(isRoom, createdRoomId))),
            CallLinkEffects(c, from, target, isRoom, createdRoomId))
  }

  // ---------------------------------------------------------------------------
  // The whole hook as a state machine
  // ---------------------------------------------------------------------------

  function Step(s: Session, e: Event): (o: Outcome)
    ensures s.isConnectStomp ==> o.session.isConnectStomp
  {
    match e
    case RoomChanged(r) => ChangeRoom(s, r)
    case Connected(h) => Connect(s, h)
    case Delivered(c, f) => Deliver(s, c, f)
    case Send(body) => SendMessage(s, body)
    case CallLink(from, target, isRoom, created) => SendRtcLink(s, from, target, isRoom, created)
    case MessagesSet(ms) => Outcome(s.(messages := ms), [])
    case Unmount => RunCleanup(s)
  }

  function StepAsWritten(s: Session, e: Event): (o: Outcome)
    ensures s.isConnectStomp ==> o.session.isConnectStomp
  {
    match e
    case CallLink(from, target, isRoom, created) => SendRtcLinkAsWritten(s, from, target, isRoom, created)
    case _ => Step(s, e)
  }

  function Run(s: Session, events: seq<Event>): Session
    decreases |events|
  {
    if |events| == 0 then s else Run(Step(s, events[0]).session, events[1..])
  }

  function RunAsWritten(s: Session, events: seq<Event>): Session
    decreases |events|
  {
    if |events| == 0 then s else RunAsWritten(StepAsWritten(s, events[0]).session, events[1..])
  }

  /**
   * `isConnectStomp` starts true and no event ever clears it, both in the hook
   * as written and with the corrected call link.
   */
  lemma {:induction false} ConnectFlagNeverCleared(userId: int, roomId: Option<int>, events: seq<Event>)
    ensures Run(Mount(userId, roomId).session, events).isConnectStomp
    ensures RunAsWritten(Mount(userId, roomId).session, events).isConnectStomp
  {
    ConnectFlagKept(Mount(userId, roomId).session, events);
    FlagKeptAsWritten(Mount(userId, roomId).session, events);
  }

  lemma {:induction false} FlagKeptAsWritten(s: Session, events: seq<Event>)
    requires s.isConnectStomp
    ensures RunAsWritten(s, events).isConnectStomp
    decreases |events|
  {
    if |events| > 0 {
      FlagKeptAsWritten(StepAsWritten(s, events[0]).session, events[1..]);
    }
  }

  lemma {:induction false} ConnectFlagKept(s: Session, events: seq<Event>)
    requires s.isConnectStomp
    ensures Run(s, events).isConnectStomp
    decreases |events|
  {
    if |events| > 0 {
      ConnectFlagKept(Step(s, events[0]).session, events[1..]);
    }
  }

  /** Deliveries on one client, all carrying `frames`. */
  function DeliveriesOn(c: Client, frames: seq<InboundFrame>): (es: seq<Event>)
    ensures |es| == |frames|
    ensures forall i :: 0 <= i < |es| ==> es[i] == Delivered(c, frames[i])
  {
    if |frames| == 0 then [] else [Delivered(c, frames[0])] + DeliveriesOn(c, frames[1..])
  }

  function ProjectAll(frames: seq<InboundFrame>): (ms: seq<ChatMessage>)
    ensures |ms| == |frames|
    ensures forall i :: 0 <= i < |frames| ==> ms[i] == Project(frames[i])
  {
    if |frames| == 0 then [] else [Project(frames[0])] + ProjectAll(frames[1..])
  }

  lemma ProjectAllCons(m: seq<ChatMessage>, frames: seq<InboundFrame>)
    requires |frames| > 0
    ensures m + [Project(frames[0])] + ProjectAll(frames[1..]) == m + ProjectAll(frames)
  {
    assert ProjectAll(frames) == [Project(frames[0])] + ProjectAll(frames[1..]);
  }

  lemma RunDelivered(s: Session, c: Client, f: InboundFrame, rest: seq<Event>)
    ensures Run(s, [Delivered(c, f)] + rest) == Run(Deliver(s, c, f).session, rest)
  {
    assert ([Delivered(c, f)] + rest)[1..] == rest;
  }

  /** Frames delivered on a listening client land at the end, in delivery order. */
  lemma {:induction false} DeliveriesAppendInOrder(s: Session, c: Client, frames: seq<InboundFrame>)
    requires Listening(s, c)
    ensures Run(s, DeliveriesOn(c, frames)) == s.(messages := s.messages + ProjectAll(frames))
    decreases |frames|
  {
    if |frames| > 0 {
      var s1 := Deliver(s, c, frames[0]).session;
      assert DeliveriesOn(c, frames) == [Delivered(c, frames[0])] + DeliveriesOn(c, frames[1..]);
      RunDelivered(s, c, frames[0], DeliveriesOn(c, frames[1..]));
      DeliveriesAppendInOrder(s1, c, frames[1..]);
      ProjectAllCons(s.messages, frames);
    } else {
      assert s.messages + ProjectAll(frames) == s.messages;
    }
  }

  /**
   * After the room effect's connect callback loads history `h`, the frames
   * then delivered on its subscription follow `h` in delivery order.
   */
  lemma HistoryThenLive(s: Session, h: seq<ChatMessage>, frames: seq<InboundFrame>)
    requires s.phase.Connecting? && s.slot.Some? && s.slot.value in s.open
    ensures var s1 := Connect(s, h).session;
      Run(s1, DeliveriesOn(s.slot.value, frames)).messages == h + ProjectAll(frames)
  {
    DeliveriesAppendInOrder(Connect(s, h).session, s.slot.value, frames);
  }

  /** Room id 0 then 5; history ["hi"], then a live "there": the list reads "hi", "there". */
  lemma ScenarioZeroThenFive(hi: ChatMessage, there: InboundFrame)
    requires hi.senderId == 9 && hi.message == "hi"
    requires there.senderId == 9 && there.message == "there"
    ensures var s := Run(Mount(1, Some(0)).session,
                         [RoomChanged(Some(5)), Connected([hi]), Delivered(Client(0), there)]);
      |s.messages| == 2 && s.messages[0].message == "hi" && s.messages[1].message == "there"
  {
    var s0 := Mount(1, Some(0)).session;
    var s1 := Step(s0, RoomChanged(Some(5))).session;
    assert s1.slot == Some(Client(0)) && s1.open == {Client(0)};
    var s2 := Step(s1, Connected([hi])).session;
    assert Listening(s2, Client(0));
    var s3 := Step(s2, Delivered(Client(0), there)).session;
    var evs := [RoomChanged(Some(5)), Connected([hi]), Delivered(Client(0), there)];
    assert Run(s0, evs) == Run(s1, evs[1..]);
    assert evs[1..][1..] == [Delivered(Client(0), there)];
    assert Run(s1, evs[1..]) == Run(s2, evs[1..][1..]);
    assert Run(s2, [Delivered(Client(0), there)]) == Run(s3, []);
  }

  // ---------------------------------------------------------------------------
  // Listener hygiene: only the current room's subscription can reach the list
  // ---------------------------------------------------------------------------

  /**
   * The session invariant: the slot holds the room effect's client, which is
   * the only open client with a subscription (a call link whose room creation
   * failed leaves an open client that never subscribes), every subscription
   * was made by an earlier client, and a live subscription listens on the
   * topic of the current room.
   */
  predicate Valid(s: Session) {
    && s.isConnectStomp
    && (forall c :: c in s.topics ==> c.serial < s.created)
    && (s.phase.NoEffect? ==> forall c :: c in s.open ==> c !in s.topics)
    && (!s.phase.NoEffect? ==>
          && s.slot == Some(s.phase.client)
          && s.phase.client in s.open
          && (forall c :: c in s.open && c in s.topics ==> c == s.phase.client)
          && s.phase.client.serial < s.created
          && s.roomId == Some(s.phase.room)
          && s.phase.room != 0)
    && (s.phase.Connecting? ==> s.phase.client !in s.topics)
    && (s.phase.Live? ==> s.phase.client in s.topics && s.topics[s.phase.client] == s.phase.room)
  }

  lemma MountValid(userId: int, roomId: Option<int>)
    ensures Valid(Mount(userId, roomId).session)
  {
  }

  /** Every event keeps the invariant. */
  lemma StepValid(s: Session, e: Event)
    requires Valid(s)
    ensures Valid(Step(s, e).session)
  {
    match e
    case RoomChanged(r) => ChangeRoomValid(s, r);
    case Connected(h) => ConnectValid(s, h);
    case Delivered(c, f) =>
    case Send(body) =>
    case CallLink(from, target, isRoom, created) => CallLinkValid(s, from, target, isRoom, created);
    case MessagesSet(ms) =>
    case Unmount => CleanupValid(s);
  }

  lemma CleanupValid(s: Session)
    requires Valid(s)
    ensures Valid(RunCleanup(s).session)
  {
  }

  lemma ChangeRoomValid(s: Session, r: Option<int>)
    requires Valid(s)
    ensures Valid(ChangeRoom(s, r).session)
  {
    if r != s.roomId {
      var closed := RunCleanup(s).session;
      CleanupValid(s);
      assert Valid(closed.(roomId := r)) || Js.TruthyNumber(r);
    }
  }

  lemma ConnectValid(s: Session, h: seq<ChatMessage>)
    requires Valid(s)
    ensures Valid(Connect(s, h).session)
  {
  }

  lemma CallLinkValid(s: Session, from: int, target: int, isRoom: bool, createdRoomId: Option<int>)
    requires Valid(s)
    ensures Valid(SendRtcLink(s, from, target, isRoom, createdRoomId).session)
  {
    if !s.phase.NoEffect? {
      assert s.phase.client != Client(s.created);
    }
  }

  lemma {:induction false} RunValid(s: Session, events: seq<Event>)
    requires Valid(s)
    ensures Valid(Run(s, events))
    decreases |events|
  {
    if |events| > 0 {
      StepValid(s, events[0]);
      RunValid(Step(s, events[0]).session, events[1..]);
    }
  }

  /**
   * In every state the hook can reach, a delivered frame is appended only if
   * it arrived on the topic of the room currently selected.
   */
  lemma OnlyCurrentRoomAppends(userId: int, roomId: Option<int>, events: seq<Event>, c: Client, f: InboundFrame)
    ensures var s := Run(Mount(userId, roomId).session, events);
      Deliver(s, c, f).session.messages != s.messages ==>
        c in s.topics && s.roomId == Some(s.topics[c]) && Js.TruthyNumber(s.roomId)
  {
    MountValid(userId, roomId);
    RunValid(Mount(userId, roomId).session, events);
  }

  /** In every reachable state with a live room, a chat message goes out on that room's open, subscribed client. */
  lemma SendGoesToCurrentRoom(s: Session, body: string)
    requires Valid(s) && s.phase.Live?
    ensures var e := SendMessage(s, body).effects;
      && |e| == 1 && e[0].Publish? && e[0].client in s.open && e[0].client in s.topics
      && e[0].payload == ChatPayload(Some(s.topics[e[0].client]), s.userId, body)
  {
  }

  /**
   * The source as written does not keep the invariant: a call link from a
   * connected room leaves the slot holding a closed client that is not the
   * room effect's.
   */
  lemma CallLinkBreaksValidAsWritten(h: seq<ChatMessage>)
    ensures var s := Run(Mount(1, Some(5)).session, [Connected(h)]);
      && Valid(s)
      && !Valid(StepAsWritten(s, CallLink(1, 5, true, None)).session)
  {
    var s0 := Mount(1, Some(5)).session;
    var s1 := Step(s0, Connected(h)).session;
    assert Run(s0, [Connected(h)]) == Run(s1, []);
    MountValid(1, Some(5));
    StepValid(s0, Connected(h));
  }

  /**
   * The source as written: after a call link, chat messages go out on the
   * call's client, already disconnected when the call completed.
   */
  lemma SendAfterCallLinkIsLost(s: Session, from: int, target: int, isRoom: bool, createdRoomId: Option<int>, body: string)
    ensures var s1 := SendRtcLinkAsWritten(s, from, target, isRoom, createdRoomId).session;
      var e := SendMessage(s1, body).effects;
      && |e| == 1 && e[0].Publish? && e[0].client == Client(s.created)
      && (CallCompletes(isRoom, createdRoomId) ==> e[0].client !in s1.open)
  {
  }

  /**
   * The source as written: open room 5, place a call from it, then select
   * room 7. The cleanup disconnects the call's client, which the slot now
   * holds, so room 5's client stays open and its frames are appended to room
   * 7's list.
   */
  lemma CallLinkLeaksRoomClient(f: InboundFrame)
    ensures var s := RunAsWritten(Mount(1, Some(5)).session,
                                  [Connected([]), CallLink(1, 5, true, None), RoomChanged(Some(7))]);
      && s.roomId == Some(7)
      && Client(0) in s.open && Client(0) in s.topics && s.topics[Client(0)] == 5
      && Deliver(s, Client(0), f).session.messages == s.messages + [Project(f)]
  {
    var s0 := Mount(1, Some(5)).session;
    var s2 := StepAsWritten(StepAsWritten(s0, Connected([])).session, CallLink(1, 5, true, None)).session;
    LeakAfterCallLink();
    LeakAfterRoomChange(s2);
    RunAsWrittenThree(s0, Connected([]), CallLink(1, 5, true, None), RoomChanged(Some(7)));
  }

  /** Room 5 is live on client 0, and the call link has left client 1, closed, in the slot. */
  lemma LeakAfterCallLink()
    ensures var s1 := StepAsWritten(Mount(1, Some(5)).session, Connected([])).session;
      StepAsWritten(s1, CallLink(1, 5, true, None)).session
        == Session(1, Some(5), Live(Client(0), 5), Some(Client(1)), 2, {Client(0)}, map[Client(0) := 5], [], true)
  {
  }

  /** Selecting room 7 then closes client 1 again and leaves client 0 open on room 5's topic. */
  lemma LeakAfterRoomChange(s2: Session)
    requires s2 == Session(1, Some(5), Live(Client(0), 5), Some(Client(1)), 2, {Client(0)}, map[Client(0) := 5], [], true)
    ensures var s3 := StepAsWritten(s2, RoomChanged(Some(7))).session;
      && s3.roomId == Some(7)
      && Client(0) in s3.open && Client(0) in s3.topics && s3.topics[Client(0)] == 5
      && forall f :: Deliver(s3, Client(0), f).session.messages == s3.messages + [Project(f)]
  {
    var s3 := StepAsWritten(s2, RoomChanged(Some(7))).session;
    assert s3.open == {Client(0), Client(2)} && s3.topics == map[Client(0) := 5];
  }

  /** Unfolds a run of three events as written. */
  lemma RunAsWrittenThree(s: Session, a: Event, b: Event, c: Event)
    ensures RunAsWritten(s, [a, b, c])
         == StepAsWritten(StepAsWritten(StepAsWritten(s, a).session, b).session, c).session
  {
    var s1 := StepAsWritten(s, a).session;
    var s2 := StepAsWritten(s1, b).session;
    var s3 := StepAsWritten(s2, c).session;
    assert [a, b, c][1..] == [b, c] && [b, c][1..] == [c] && [c][1..] == [];
    assert RunAsWritten(s, [a, b, c]) == RunAsWritten(s1, [b, c]);
    assert RunAsWritten(s1, [b, c]) == RunAsWritten(s2, [c]);
    assert RunAsWritten(s2, [c]) == RunAsWritten(s3, []);
  }
}

=== FILE: strings.dfy ===
/**
 * String helpers shared by the model: ASCII case folding (the model's stand-in
 * for `toLowerCase`), `startsWith`, Java's `String.trim`, and the decimal
 * rendering JavaScript uses when a number is put into a template string.
 */
module Strings {

  // ---------------------------------------------------------------------------
  // Case folding (ASCII only)
  // ---------------------------------------------------------------------------

  predicate IsAsciiUpper(c: char) {
    'A' <= c <= 'Z'
  }

  /** Lower-cases an ASCII capital; every other character is left alone. */
  function LowerChar(c: char): (r: char)
    ensures !IsAsciiUpper(r)
    ensures !IsAsciiUpper(c) ==> r == c
  {
    if IsAsciiUpper(c) then (c as int + 32) as char else c
  }

  /** `toLowerCase` restricted to ASCII letters. */
  function Lower(s: string): (r: string)
    ensures |r| == |s|
    ensures forall i :: 0 <= i < |s| ==> r[i] == LowerChar(s[i])
  {
    seq(|s|, i requires 0 <= i < |s| => LowerChar(s[i]))
  }

  /** `s.startsWith(p)`. */
  predicate StartsWith(s: string, p: string) {
    |p| <= |s| && s[..|p|] == p
  }

  // ---------------------------------------------------------------------------
  // Java's String.trim: strips every character at or below U+0020 from both ends
  // ---------------------------------------------------------------------------

  predicate IsTrimmable(c: char) {
    c <= ' '
  }

  /** How many trimmable characters `s` starts with. */
  function LeadingBlanks(s: string): (n: nat)
    ensures n <= |s|
    ensures forall k :: 0 <= k < n ==> IsTrimmable(s[k])
    ensures n < |s| ==> !IsTrimmable(s[n])
  {
    if |s| > 0 && IsTrimmable(s[0]) then 1 + LeadingBlanks(s[1..]) else 0
  }

  /** `s[i..j]` is what is left after cutting only trimmable characters from the ends of `s`. */
  predicate TrimmedSlice(s: string, i: int, j: int) {
    && 0 <= i <= j <= |s|
    && (forall k :: 0 <= k < i ==> IsTrimmable(s[k]))
    && (forall k :: j <= k < |s| ==> IsTrimmable(s[k]))
  }

  /**
   * `s.trim()`: the slice of `s` that starts after its leading trimmable
   * characters, cut only trimmable characters from either end, with no
   * trimmable character left at either end.
   */
  function Trim(s: string): (r: string)
    ensures var i := LeadingBlanks(s); i + |r| <= |s| && r == s[i..i + |r|] && TrimmedSlice(s, i, i + |r|)
    ensures |r| > 0 ==> !IsTrimmable(r[0]) && !IsTrimmable(r[|r| - 1])
  {
    var i := LeadingBlanks(s);
    TrimCore(s, i)
  }

  /** Cuts the trailing trimmable characters of `s[i..]`, where `s[..i]` is all trimmable. */
  function TrimCore(s: string, i: nat): (r: string)
    requires i <= |s| && (forall k :: 0 <= k < i ==> IsTrimmable(s[k])) && (i < |s| ==> !IsTrimmable(s[i]))
    ensures i + |r| <= |s| && r == s[i..i + |r|] && TrimmedSlice(s, i, i + |r|)
    ensures |r| > 0 ==> !IsTrimmable(r[0]) && !IsTrimmable(r[|r| - 1])
    decreases |s|
  {
    if |s| > i && IsTrimmable(s[|s| - 1]) then
      var r := TrimCore(s[..|s| - 1], i);
      assert s[..|s| - 1][i..i + |r|] == s[i..i + |r|];
      r
    else s[i..]
  }

  /** A string trims to the empty string exactly when it is blank. */
  lemma TrimEmptyIffBlank(s: string)
    ensures Trim(s) == "" <==> forall i :: 0 <= i < |s| ==> IsTrimmable(s[i])
  {
  }

  /** Trimming is idempotent. */
  lemma TrimIdempotent(s: string)
    ensures Trim(Trim(s)) == Trim(s)
  {
    var r := Trim(s);
    if |r| > 0 {
      assert LeadingBlanks(r) == 0;
      assert r[0..] == r;
    }
  }

  // ---------------------------------------------------------------------------
  // Decimal rendering of integers (`${n}` in a template string)
  // ---------------------------------------------------------------------------

  predicate IsDigit(c: char) {
    '0' <= c <= '9'
  }

  predicate AllDigits(s: string) {
    forall i :: 0 <= i < |s| ==> IsDigit(s[i])
  }

  function DigitChar(d: nat): (c: char)
    requires d < 10
    ensures IsDigit(c) && c as int - '0' as int == d
  {
    ('0' as int + d) as char
  }

  /** Decimal digits of `n`, most significant first, without leading zeros. */
  function NatToDecimal(n: nat): (r: string)
    ensures |r| > 0 && AllDigits(r)
    ensures |r| > 1 ==> r[0] != '0'
  {
    if n < 10 then [DigitChar(n)] else NatToDecimal(n / 10) + [DigitChar(n % 10)]
  }

  /** The value a string of decimal digits denotes. */
  function DecimalValue(s: string): nat
    requires AllDigits(s)
  {
    if |s| == 0 then 0 else DecimalValue(s[..|s| - 1]) * 10 + (s[|s| - 1] as int - '0' as int)
  }

  /** Reading back the rendering of `n` gives `n`. */
  lemma {:induction false} DecimalRoundTrip(n: nat)
    ensures DecimalValue(NatToDecimal(n)) == n
  {
    if n >= 10 {
      DecimalRoundTrip(n / 10);
      var r := NatToDecimal(n);
      assert r[..|r| - 1] == NatToDecimal(n / 10);
    }
  }

  /** `${i}` for an integer `i`. */
  function IntToDecimal(i: int): (r: string)
    ensures |r| > 0
    ensures i >= 0 <==> IsDigit(r[0])
  {
    if i < 0 then "-" + NatToDecimal(-i) else NatToDecimal(i)
  }

  /** Distinct integers render to distinct strings. */
  lemma IntToDecimalInjective(a: int, b: int)
    requires IntToDecimal(a) == IntToDecimal(b)
    ensures a == b
  {
    if a < 0 && b < 0 {
      NegativeDigits(a);
      NegativeDigits(b);
      NatToDecimalInjective(-a, -b);
    } else if a >= 0 && b >= 0 {
      NatToDecimalInjective(a, b);
    }
  }

  lemma NatToDecimalInjective(x: nat, y: nat)
    requires NatToDecimal(x) == NatToDecimal(y)
    ensures x == y
  {
    DecimalRoundTrip(x);
    DecimalRoundTrip(y);
  }

  /** A negative number renders as a minus sign before the digits of its magnitude. */
  lemma NegativeDigits(i: int)
    requires i < 0
    ensures IntToDecimal(i)[1..] == NatToDecimal(-i)
  {
  }

  /** `prefix + x == prefix + y` only when `x == y`. */
  lemma AppendCancel(prefix: string, x: string, y: string)
    requires prefix + x == prefix + y
    ensures x == y
  {
    assert x == (prefix + x)[|prefix|..];
    assert y == (prefix + y)[|prefix|..];
  }
}

=== FILE: user_status.dfy ===
/**
 * The user-lookup view (`UserStatus`): the filter payload sent to the user
 * search, how each filter control edits it, when a search is issued, and how a
 * search result updates the listed users. The filter-title table is an
 * uninterpreted map supplied by the caller.
 */
module UserStatus {
  import opened Wrappers
  import Lists

  const DefaultProject: int := 101
  const ProjectKey: string := "project"
  const StudentNumberKey: string := "studentNumber"
  const SortKey: string := "sort"
  /** The JavaScript property name an undefined key turns into. */
  const UndefinedKey: string := "undefined"
  /** The server's "no matching user" error message. */
  const NoMatchingUser: string := "\U{C77C}\U{CE58}\U{D558}\U{B294} \U{C720}\U{C800}\U{AC00} \U{C5C6}\U{C2B5}\U{B2C8}\U{B2E4}"

  /** A payload field: undefined, a number, a string, or a multi-select list of codes. */
  datatype Value = Undefined | Num(n: int) | Text(s: string) | Codes(codes: seq<string>)

  type Payload = map<string, Value>

  datatype User = User(id: int, introduce: string, name: string, skillList: seq<string>, trackList: seq<string>)

  /** The logged-in user's project codes (undefined is None) and the filter-title table. */
  datatype Context = Context(projectCode: Option<seq<int>>, filterTitle: map<string, string>)

  // ---------------------------------------------------------------------------
  // Initial payload and the search guard
  // ---------------------------------------------------------------------------

  /** The project of the initial payload: the last code, but only when there are at least two. */
  function InitialProject(projectCode: Option<seq<int>>): (p: int)
    ensures projectCode.Some? && |projectCode.value| > 1 ==> p == projectCode.value[|projectCode.value| - 1]
    ensures !(projectCode.Some? && |projectCode.value| > 1) ==> p == DefaultProject
  {
    match projectCode
    case Some(codes) => if |codes| > 1 then codes[|codes| - 1] else DefaultProject
    case None => DefaultProject
  }

  function InitialPayload(ctx: Context, studentNumber: Value): (p: Payload)
    ensures p.Keys == {ProjectKey, StudentNumberKey, SortKey}
    ensures p[ProjectKey] == Num(InitialProject(ctx.projectCode))
    ensures p[StudentNumberKey] == studentNumber && p[SortKey] == Text("asc")
  {
    map[ProjectKey := Num(InitialProject(ctx.projectCode)), StudentNumberKey := studentNumber, SortKey := Text("asc")]
  }

  /** The search fires only for a payload that has both keys, whatever their values. */
  predicate ShouldFetch(p: Payload) {
    StudentNumberKey in p && ProjectKey in p
  }

  /** The empty first payload issues no search; the initial one always does, even with an undefined student number. */
  lemma InitialPayloadFetches(ctx: Context, studentNumber: Value)
    ensures !ShouldFetch(map[])
    ensures ShouldFetch(InitialPayload(ctx, studentNumber))
  {
  }

  // ---------------------------------------------------------------------------
  // Filter controls
  // ---------------------------------------------------------------------------

  /** `FILTER_TITLE[title]` used as a property name. */
  function PayloadKey(ctx: Context, title: string): string {
    if title in ctx.filterTitle then ctx.filterTitle[title] else UndefinedKey
  }

  /** A multi-select click: a present code loses its first occurrence, an absent one is appended. */
  function ToggleCode(codes: seq<string>, code: string): (r: seq<string>)
    ensures code !in codes ==> r == codes + [code]
    ensures code in codes ==> r == Lists.RemoveFirst(codes, code)
  {
    if code in codes then Lists.RemoveFirst(codes, code) else codes + [code]
  }

  /** Toggling an absent code twice gives the list back. */
  lemma ToggleTwiceRestores(codes: seq<string>, code: string)
    requires code !in codes
    ensures ToggleCode(ToggleCode(codes, code), code) == codes
  {
    Lists.RemoveAppended(codes, code);
  }

  /** On a duplicate-free list a toggle flips membership and keeps the list duplicate-free. */
  lemma ToggleFlipsMembership(codes: seq<string>, code: string)
    requires Lists.NoDuplicates(codes)
    ensures Lists.NoDuplicates(ToggleCode(codes, code))
    ensures code in ToggleCode(codes, code) <==> code !in codes
  {
    Lists.RemoveFirstNoDuplicates(codes, code);
  }

  /**
   * `handleFilter`: a missing key starts as an empty list, then the code is
   * toggled; every other key is left as it was. None is the TypeError a
   * non-list value under the key raises, which leaves the payload unchanged.
   */
  function MultiFilter(p: Payload, ctx: Context, title: string, code: string): (r: Option<Payload>)
    ensures var key := PayloadKey(ctx, title);
      && (key !in p ==> r == Some(p[key := Codes([code])]))
      && (key in p && p[key].Codes? ==> r == Some(p[key := Codes(ToggleCode(p[key].codes, code))]))
      && (key in p && !p[key].Codes? ==> r.None?)
      && (r.Some? ==> key in r.value && r.value - {key} == p - {key})
  {
    var key := PayloadKey(ctx, title);
    var current := if key in p then p[key] else Codes([]);
    match current
    case Codes(codes) =>
      assert key !in p ==> ToggleCode(codes, code) == [code];
      Some(p[key := Codes(ToggleCode(codes, code))])
    case _ => None
  }

  /** `handleToggleFilter`: a radio choice overwrites its key. */
  function RadioFilter(p: Payload, ctx: Context, title: string, code: string): (r: Payload)
    ensures PayloadKey(ctx, title) in r && r[PayloadKey(ctx, title)] == Text(code)
    ensures r - {PayloadKey(ctx, title)} == p - {PayloadKey(ctx, title)}
  {
    p[PayloadKey(ctx, title) := Text(code)]
  }

  /** `handleSortByChange`: the project changes only to one of the user's project codes. */
  function SelectProject(p: Payload, ctx: Context, value: int): (r: Option<Payload>)
    ensures r.Some? <==> ctx.projectCode.Some? && value in ctx.projectCode.value
    ensures r.Some? ==> ProjectKey in r.value && r.value[ProjectKey] == Num(value) && r.value - {ProjectKey} == p - {ProjectKey}
  {
    if ctx.projectCode.Some? && value in ctx.projectCode.value then Some(p[ProjectKey := Num(value)]) else None
  }

  // ---------------------------------------------------------------------------
  // The view as a state machine
  // ---------------------------------------------------------------------------

  datatype Lookup = Lookup(payload: Payload, sortAsc: bool, users: seq<User>)

  datatype Action =
    | MultiFilterClick(title: string, code: string)
    | RadioFilterClick(title: string, code: string)
    | ProjectChange(value: int)
    | SortClick(sort: string)
    | SortIconClick

  /** A state change and the search it triggers (the payload it posts), if any. */
  datatype Outcome = Outcome(lookup: Lookup, search: Option<Payload>)

  /** Storing a new payload re-runs the search effect, which posts it if the guard allows. */
  function SetPayload(st: Lookup, p: Payload): (o: Outcome)
    ensures o.lookup == st.(payload := p)
    ensures o.search.Some? <==> ShouldFetch(p)
    ensures o.search.Some? ==> o.search.value == p
  {
    Outcome(st.(payload := p), if ShouldFetch(p) then Some(p) else None)
  }

  /**
   * The first render: no users, ascending order, and the initial payload,
   * which the search effect posts at once.
   */
  function Mount(ctx: Context, studentNumber: Value): (o: Outcome)
    ensures o.lookup == Lookup(InitialPayload(ctx, studentNumber), true, [])
    ensures o.search == Some(InitialPayload(ctx, studentNumber))
  {
    InitialPayloadFetches(ctx, studentNumber);
    SetPayload(Lookup(map[], true, []), InitialPayload(ctx, studentNumber))
  }

  /**
   * `handleClickSort`: the payload takes the given sort and the direction
   * flag flips.
   */
  function ClickSort(st: Lookup, sort: string): (o: Outcome)
    ensures SortKey in o.lookup.payload && o.lookup.payload[SortKey] == Text(sort)
    ensures o.lookup.payload - {SortKey} == st.payload - {SortKey}
    ensures o.lookup.sortAsc == !st.sortAsc && o.lookup.users == st.users
  {
    var o := SetPayload(st, st.payload[SortKey := Text(sort)]);
    o.(lookup := o.lookup.(sortAsc := !st.sortAsc))
  }

  function Dispatch(st: Lookup, ctx: Context, a: Action): (o: Outcome)
    ensures o.lookup.users == st.users
    ensures o.search.Some? ==> o.search.value == o.lookup.payload
  {
    match a
    case MultiFilterClick(title, code) =>
      (match MultiFilter(st.payload, ctx, title, code)
       case Some(p) => SetPayload(st, p)
       case None => Outcome(st, None))
    case RadioFilterClick(title, code) => SetPayload(st, RadioFilter(st.payload, ctx, title, code))
    case ProjectChange(value) =>
      (match SelectProject(st.payload, ctx, value)
       case Some(p) => SetPayload(st, p)
       case None => Outcome(st, None))
    case SortClick(sort) => ClickSort(st, sort)
    case SortIconClick => ClickSort(st, if st.sortAsc then "asc" else "desc")
  }

  /** No control removes a payload key. */
  lemma DispatchKeepsKeys(st: Lookup, ctx: Context, a: Action)
    ensures st.payload.Keys <= Dispatch(st, ctx, a).lookup.payload.Keys
  {
    match a
    case MultiFilterClick(title, code) =>
      var key := PayloadKey(ctx, title);
      if key in st.payload && !st.payload[key].Codes? {
      } else {
        var r := MultiFilter(st.payload, ctx, title, code).value;
        assert forall k :: k in st.payload && k != key ==> k in r - {key};
      }
    case RadioFilterClick(title, code) =>
    case ProjectChange(value) =>
      if ctx.projectCode.Some? && value in ctx.projectCode.value {
        var r := SelectProject(st.payload, ctx, value).value;
        assert forall k :: k in st.payload && k != ProjectKey ==> k in r - {ProjectKey};
      }
    case SortClick(sort) =>
      var r := Dispatch(st, ctx, a).lookup.payload;
      assert forall k :: k in st.payload && k != SortKey ==> k in r - {SortKey};
    case SortIconClick =>
      var r := Dispatch(st, ctx, a).lookup.payload;
      assert forall k :: k in st.payload && k != SortKey ==> k in r - {SortKey};
  }

  function Run(st: Lookup, ctx: Context, actions: seq<Action>): Lookup
    decreases |actions|
  {
    if |actions| == 0 then st else Run(Dispatch(st, ctx, actions[0]).lookup, ctx, actions[1..])
  }

  /** Once the initial payload is set, every control that stores a payload triggers a search. */
  lemma {:induction false} SearchAlwaysArmed(st: Lookup, ctx: Context, actions: seq<Action>)
    requires ShouldFetch(st.payload)
    ensures ShouldFetch(Run(st, ctx, actions).payload)
    decreases |actions|
  {
    if |actions| > 0 {
      DispatchKeepsKeys(st, ctx, actions[0]);
      SearchAlwaysArmed(Dispatch(st, ctx, actions[0]).lookup, ctx, actions[1..]);
    }
  }

  /**
   * The sort icon posts the direction it showed before the click, so after
   * every icon click the posted sort is the opposite of the icon's new state.
   */
  lemma SortIconPostsPreviousDirection(st: Lookup, ctx: Context)
    ensures var o := Dispatch(st, ctx, SortIconClick);
      o.lookup.payload[SortKey] == Text(if o.lookup.sortAsc then "desc" else "asc")
  {
  }

  // ---------------------------------------------------------------------------
  // Search results
  // ---------------------------------------------------------------------------

  /** A search reply: the users found, or a rejection with the server's message (None if there is none to read). */
  datatype SearchReply = Found(users: seq<User>) | Rejected(errorMessage: Option<string>)

  /** The users listed after a reply: replaced, emptied on "no matching user", or left alone. */
  function ApplyReply(users: seq<User>, reply: SearchReply): (r: seq<User>)
    ensures reply.Found? ==> r == reply.users
    ensures reply == Rejected(Some(NoMatchingUser)) ==> r == []
    ensures reply.Rejected? && reply != Rejected(Some(NoMatchingUser)) ==> r == users
  {
    match reply
    case Found(found) => found
    case Rejected(msg) => if msg == Some(NoMatchingUser) then [] else users
  }
  /** A reply that decides the list by itself: found users, or the "no matching user" rejection. */
  predicate Decisive(reply: SearchReply) {
    reply.Found? || reply == Rejected(Some(NoMatchingUser))
  }

  /** The list a decisive reply shows. */
  function Shown(reply: SearchReply): seq<User>
    requires Decisive(reply)
  {
    if reply.Found? then reply.users else []
  }

  /** Replies applied in the order they arrive. */
  function ApplyReplies(users: seq<User>, replies: seq<SearchReply>): seq<User>
    decreases |replies|
  {
    if |replies| == 0 then users else ApplyReplies(ApplyReply(users, replies[0]), replies[1..])
  }

  /** Replies that decide nothing leave the list as it was. */
  lemma {:induction false} UndecidedRepliesKeepList(users: seq<User>, replies: seq<SearchReply>)
    requires forall i :: 0 <= i < |replies| ==> !Decisive(replies[i])
    ensures ApplyReplies(users, replies) == users
    decreases |replies|
  {
    if |replies| > 0 {
      assert !Decisive(replies[0]);
      UndecidedRepliesKeepList(users, replies[1..]);
    }
  }

  /** After any sequence of replies the list is the one the last decisive reply showed. */
  lemma {:induction false} LastDecisiveReplyWins(users: seq<User>, replies: seq<SearchReply>, i: nat)
    requires i < |replies| && Decisive(replies[i])
    requires forall j :: i < j < |replies| ==> !Decisive(replies[j])
    ensures ApplyReplies(users, replies) == Shown(replies[i])
    decreases |replies|
  {
    var rest := replies[1..];
    if i == 0 {
      assert forall j :: 0 <= j < |rest| ==> rest[j] == replies[j + 1];
      UndecidedRepliesKeepList(ApplyReply(users, replies[0]), rest);
    } else {
      assert forall j :: i - 1 <= j < |rest| ==> rest[j] == replies[j + 1];
      LastDecisiveReplyWins(ApplyReply(users, replies[0]), rest, i - 1);
    }
  }
}

=== FILE: video_chat.dfy ===
/**
 * The video call page (`VideoChat`): the session id it asks the media server
 * for, the subscriber list kept as streams come and go, the publisher options
 * derived from the chosen microphone and camera, and how session creation
 * treats the server's replies. The media SDK and the HTTP calls are abstract:
 * their replies are inputs.
 */
module VideoChat {
  import opened Wrappers
  import Lists

  const DefaultUserName: string := "MeetInSsafy"
  const SessionPrefix: string := "session_of_"
  const ServerUrl: string := "https://localhost:4443"
  const CertificatePath: string := "/accept-certificate"
  const Resolution: string := "640x320"
  const FrameRate: int := 30
  const Conflict: int := 409

  // ---------------------------------------------------------------------------
  // Session naming
  // ---------------------------------------------------------------------------

  /** The display name: the user's name, or the default when it is falsy. */
  function UserName(name: Option<string>): (r: string)
    ensures r != ""
    ensures name.Some? && name.value != "" ==> r == name.value
    ensures name.None? || name.value == "" ==> r == DefaultUserName
  {
    match name
    case Some(n) => if n != "" then n else DefaultUserName
    case None => DefaultUserName
  }

  /** The session id: the fixed prefix followed by the display name. */
  function SessionId(name: Option<string>): (r: string)
    ensures |r| > |SessionPrefix| && r[..|SessionPrefix|] == SessionPrefix
    ensures r[|SessionPrefix|..] == UserName(name)
  {
    SessionPrefix + UserName(name)
  }

  /** Every session id carries the prefix, and users with different display names get different sessions. */
  lemma SessionIdNaming(a: Option<string>, b: Option<string>)
    ensures |SessionId(a)| > |SessionPrefix| && SessionId(a)[..|SessionPrefix|] == SessionPrefix
    ensures SessionId(a)[|SessionPrefix|..] == UserName(a)
    ensures SessionId(a) == SessionId(b) <==> UserName(a) == UserName(b)
  {
    assert SessionId(a)[|SessionPrefix|..] == UserName(a);
    assert SessionId(b)[|SessionPrefix|..] == UserName(b);
  }

  // ---------------------------------------------------------------------------
  // Subscribers
  // ---------------------------------------------------------------------------

  /** A stream manager, compared by identity. */
  datatype StreamManager = StreamManager(id: nat)

  /** `streamCreated`: the new subscriber goes after all the others. */
  function StreamCreated(subs: seq<StreamManager>, sub: StreamManager): (r: seq<StreamManager>)
    ensures |r| == |subs| + 1 && r[..|subs|] == subs && r[|subs|] == sub
  {
    subs + [sub]
  }

  /**
   * `deleteSubscriber`: removes the first entry that is the stream's manager,
   * keeping the rest in order; an absent manager changes nothing.
   */
  function DeleteSubscriber(subs: seq<StreamManager>, sm: StreamManager): (r: seq<StreamManager>)
    ensures sm !in subs ==> r == subs
    ensures sm in subs ==>
      var i := Lists.IndexOf(subs, sm);
      && (forall j :: 0 <= j < i ==> subs[j] != sm)
      && r == subs[..i] + subs[i + 1..]
    ensures sm in subs ==> multiset(r) == multiset(subs) - multiset{sm} && |r| == |subs| - 1
  {
    Lists.RemoveFirstMultiset(subs, sm);
    Lists.RemoveFirst(subs, sm)
  }

  /** A stream that arrives and then goes leaves the list as it was, if it was not there before. */
  lemma CreatedThenDestroyed(subs: seq<StreamManager>, sub: StreamManager)
    requires sub !in subs
    ensures DeleteSubscriber(StreamCreated(subs, sub), sub) == subs
  {
    Lists.RemoveAppended(subs, sub);
  }

  // ---------------------------------------------------------------------------
  // Publisher options
  // ---------------------------------------------------------------------------

  /** The devices chosen in the configuration modal; None is undefined. */
  datatype UserDevice = UserDevice(mic: Option<string>, cam: Option<string>)

  datatype PublisherOptions = PublisherOptions(
    audioSource: Option<string>,
    videoSource: Option<string>,
    publishAudio: bool,
    publishVideo: bool,
    resolution: string,
    frameRate: int,
    mirror: bool)

  /** A device choice counts as none when it is undefined or empty. */
  predicate IsNone(device: Option<string>) {
    device.None? || device.value == ""
  }

  /**
   * The publisher options: a device that is none gives no source and is not
   * published; any other is used as the source and published.
   */
  function PublisherFor(d: UserDevice): (p: PublisherOptions)
    ensures p.publishAudio <==> !IsNone(d.mic)
    ensures p.publishVideo <==> !IsNone(d.cam)
    ensures p.audioSource == (if IsNone(d.mic) then None else d.mic)
    ensures p.videoSource == (if IsNone(d.cam) then None else d.cam)
    ensures p.resolution == Resolution && p.frameRate == FrameRate && !p.mirror
  {
    var micIsNone := IsNone(d.mic);
    var camIsNone := IsNone(d.cam);
    PublisherOptions(
      if micIsNone then None else d.mic,
      if camIsNone then None else d.cam,
      !micIsNone, !camIsNone, Resolution, FrameRate, false)
  }

  /** A track is published exactly when it has a source, and the empty string is never a source. */
  lemma PublishIffSource(d: UserDevice)
    ensures PublisherFor(d).publishAudio <==> PublisherFor(d).audioSource.Some?
    ensures PublisherFor(d).publishVideo <==> PublisherFor(d).videoSource.Some?
    ensures PublisherFor(d).audioSource != Some("") && PublisherFor(d).videoSource != Some("")
  {
  }

  // ---------------------------------------------------------------------------
  // Session creation and tokens
  // ---------------------------------------------------------------------------

  /** The media server's reply to the session POST. */
  datatype SessionReply = Created(id: string) | HttpError(status: int) | NoResponse

  /**
   * The promise `createSession` returns: resolved with an id, or never settled
   * (after offering to open the certificate page, which happens when the user
   * confirms).
   */
  datatype SessionOutcome = Resolved(id: string) | Unsettled(navigateTo: Option<string>)

  /** A 409 means the session already exists, which counts as success with the requested id. */
  function CreateSession(sessionId: string, reply: SessionReply, confirmed: bool): (r: SessionOutcome)
    ensures r.Resolved? <==> reply.Created? || reply == HttpError(Conflict)
    ensures reply.Created? ==> r == Resolved(reply.id)
    ensures reply == HttpError(Conflict) ==> r == Resolved(sessionId)
    ensures r.Unsettled? ==> r.navigateTo == (if confirmed then Some(ServerUrl + CertificatePath) else None)
  {
    match reply
    case Created(id) => Resolved(id)
    case HttpError(status) =>
      if status == Conflict then Resolved(sessionId)
      else Unsettled(if confirmed then Some(ServerUrl + CertificatePath) else None)
    case NoResponse => Unsettled(if confirmed then Some(ServerUrl + CertificatePath) else None)
  }

  datatype TokenReply = TokenIssued(token: string) | TokenFailed

  datatype TokenOutcome = Token(token: string) | TokenRejected | TokenPending

  /** `getToken`: a token is requested only for a resolved session; a stalled session leaves it pending forever. */
  function GetToken(sessionId: string, reply: SessionReply, confirmed: bool, tokenReply: TokenReply): (r: TokenOutcome)
    ensures r.TokenPending? <==> CreateSession(sessionId, reply, confirmed).Unsettled?
    ensures r.Token? <==> CreateSession(sessionId, reply, confirmed).Resolved? && tokenReply.TokenIssued?
    ensures r.Token? ==> r.token == tokenReply.token
  {
    match CreateSession(sessionId, reply, confirmed)
    case Unsettled(_) => TokenPending
    case Resolved(_) =>
      match tokenReply
      case TokenIssued(t) => Token(t)
      case TokenFailed => TokenRejected
  }

  // ---------------------------------------------------------------------------
  // The page as a state machine
  // ---------------------------------------------------------------------------

  datatype Video = Video(
    device: UserDevice,
    configShown: bool,
    sessionStarted: bool,
    subscribers: seq<StreamManager>,
    publisher: Option<PublisherOptions>)

  function Initial(): Video {
    Video(UserDevice(Some(""), Some("")), true, false, [], None)
  }

  /** `handlerJoinBtn`: the choice is recorded, the modal hides and a session starts. */
  function Join(v: Video, mic: Option<string>, cam: Option<string>): (r: Video)
    ensures r.device == UserDevice(mic, cam) && !r.configShown && r.sessionStarted
    ensures r.subscribers == v.subscribers && r.publisher == v.publisher
  {
    v.(device := UserDevice(mic, cam), configShown := false, sessionStarted := true)
  }

  /** `handlerConfigModalCloseBtn`: no publisher, and the modal hides. */
  function CloseConfig(v: Video): (r: Video)
    ensures r.publisher.None? && !r.configShown
    ensures r.(publisher := v.publisher, configShown := v.configShown) == v
  {
    v.(publisher := None, configShown := false)
  }

  /** Once the session connects with a token, the publisher follows the recorded choice. */
  function SessionConnected(v: Video): (r: Video)
    requires v.sessionStarted
    ensures r.publisher == Some(PublisherFor(v.device))
    ensures r.(publisher := v.publisher) == v
  {
    v.(publisher := Some(PublisherFor(v.device)))
  }

  /** Joining with no microphone but a camera publishes video only, from that camera. */
  lemma JoinWithoutMic(v: Video, cam: string)
    requires cam != ""
    ensures var p := SessionConnected(Join(v, Some(""), Some(cam))).publisher.value;
      !p.publishAudio && p.audioSource.None? && p.publishVideo && p.videoSource == Some(cam)
  {
  }
  /**
   * For every choice of devices: joining and then connecting publishes with
   * exactly that choice, with the modal hidden and the subscribers untouched.
   */
  lemma JoinThenConnect(v: Video, mic: Option<string>, cam: Option<string>)
    ensures var r := SessionConnected(Join(v, mic, cam));
      && r.publisher == Some(PublisherFor(UserDevice(mic, cam)))
      && (r.publisher.value.publishAudio <==> !IsNone(mic))
      && (r.publisher.value.publishVideo <==> !IsNone(cam))
      && !r.configShown && r.sessionStarted
      && r.subscribers == v.subscribers
  {
  }

  /** Cancelling the modal after connecting drops the publisher and keeps the subscribers and the device choice. */
  lemma CloseAfterConnect(v: Video)
    requires v.sessionStarted
    ensures var r := CloseConfig(SessionConnected(v));
      r.publisher.None? && !r.configShown && r.subscribers == v.subscribers && r.device == v.device
  {
  }

  /** What happens on the page, one event at a time. */
  datatype PageEvent =
    | JoinClicked(mic: Option<string>, cam: Option<string>)
    | ConfigCancelled
    | TokenConnected
    | StreamIn(sub: StreamManager)
    | StreamOut(sm: StreamManager)

  /** A connection can only follow a started session; the stream events edit the subscriber list. */
  function Step(v: Video, e: PageEvent): (r: Video)
    ensures !e.StreamIn? && !e.StreamOut? ==> r.subscribers == v.subscribers
    ensures e.StreamIn? || e.StreamOut? ==> r.(subscribers := v.subscribers) == v
    ensures |r.subscribers| <= |v.subscribers| + (if e.StreamIn? then 1 else 0)
  {
    match e
    case JoinClicked(mic, cam) => Join(v, mic, cam)
    case ConfigCancelled => CloseConfig(v)
    case TokenConnected => if v.sessionStarted then SessionConnected(v) else v
    case StreamIn(sub) => v.(subscribers := StreamCreated(v.subscribers, sub))
    case StreamOut(sm) => v.(subscribers := DeleteSubscriber(v.subscribers, sm))
  }

  function Run(v: Video, events: seq<PageEvent>): Video
    decreases |events|
  {
    if |events| == 0 then v else Run(Step(v, events[0]), events[1..])
  }

  /** How many streams of `events` arrive. */
  function Arrivals(events: seq<PageEvent>): nat
    decreases |events|
  {
    if |events| == 0 then 0 else (if events[0].StreamIn? then 1 else 0) + Arrivals(events[1..])
  }

  /** The subscriber list never grows by more than the streams that arrived. */
  lemma {:induction false} SubscribersBoundedByArrivals(v: Video, events: seq<PageEvent>)
    ensures |Run(v, events).subscribers| <= |v.subscribers| + Arrivals(events)
    decreases |events|
  {
    if |events| > 0 {
      SubscribersBoundedByArrivals(Step(v, events[0]), events[1..]);
    }
  }

  /** Without stream events the subscriber list does not change. */
  lemma {:induction false} OnlyStreamsChangeSubscribers(v: Video, events: seq<PageEvent>)
    requires forall i :: 0 <= i < |events| ==> !events[i].StreamIn? && !events[i].StreamOut?
    ensures Run(v, events).subscribers == v.subscribers
    decreases |events|
  {
    if |events| > 0 {
      assert !events[0].StreamIn? && !events[0].StreamOut?;
      assert forall i :: 0 <= i < |events[1..]| ==> events[1..][i] == events[i + 1];
      OnlyStreamsChangeSubscribers(Step(v, events[0]), events[1..]);
    }
  }
}

=== FILE: wrappers.dfy ===
/** Optional values: `None` stands for JavaScript's `undefined` (or Java's `null`). */
module Wrappers {

  datatype Option<+T> = None | Some(value: T) {

    /** Returns the wrapped value, or `default` when there is none. */
    function GetOr(default: T): T {
      match this
      case Some(v) => v
      case None => default
    }
  }
}
